=== FILE: README.md ===
# Leads CRM backend: access scoping, authorisation and reminder dispatch

This Dafny project models the rule-bearing core of a Django REST Framework CRM
backend:

- the `User` roles (`manager`, `agent`) and their predicates;
- both copies of the permission classes (`IsManagerOrReadOnly`,
  `IsOwnerOrManager`, `IsManager`), including the duck-typed
  `hasattr(obj, 'created_by')` / `hasattr(obj, 'assigned_to')` tests;
- the five entity kinds — Lead, Contact, Note, Correspondence, Reminder — with
  their defaults, choice sets, nullability, `on_delete` rules and default
  orderings, kept in one store of `map<Id, Record>` tables;
- the serializers' writable and read-only field sets, and the agent-only
  `assigned_to_id` field;
- the five viewsets as the REST framework runs them:
  - `check_permissions` over the viewset's `permission_classes`;
  - `get_queryset` row scoping, including the `is_completed` query parameter;
  - `get_object` (a lookup inside the scope, then `check_object_permissions`);
  - `perform_create`, `add_note`, `add_reminder`, `add_correspondence`,
    `mark_completed`, retrieve, list and destroy;
- the two Celery tasks, `send_daily_reminders` (selection and fan-out) and
  `send_reminder_email` (guard, recipient and subject).

Modules follow the source layout:

| module | file | models |
|---|---|---|
| `Wrappers` | wrappers.dfy | `Option` and `Result` |
| `Accounts` | accounts.dfy | accounts/models.py |
| `Ownership` | ownership.dfy | the ownership attributes an object exposes (`created_by`, `assigned_to`, each absent, null or a user) |
| `LeadPermissions` | lead_permissions.dfy | leads/permissions.py |
| `AccountsPermissions` | accounts_permissions.dfy | accounts/permissions.py |
| `Models` | models.dfy | leads/models.py |
| `Ordering` | ordering.dfy | `Meta.ordering`: sorting a set of row ids by a key |
| `Serializers` | serializers.dfy | leads/serializers.py |
| `Views` | views.dfy | leads/views.py |
| `Tasks` | tasks.dfy | leads/tasks.py |

Conventions:

- **Time.** Timestamps are integer seconds (UTC). A calendar day is `t / 86400`.
  Dafny's division floors for a positive divisor, as Python's `//` does.
- **Row ids.** They are natural numbers. The UUID a new row would receive is a
  parameter (`newId`) chosen by the caller. A collision is reported as an
  integrity error.
- **Effects.** Every handler that can write (create, the detail actions and
  destroy) returns the response together with the store after the request.
  A refused request returns the store unchanged. Retrieve and list only read
  the store and return no store.
- **Transport.** The mail transport's success is a parameter (`delivered`).
  Celery's queue is the sequence of enqueued ids.

Behaviour of the code that the model keeps as it is:

- A dispatch is not retried, and there is no backoff.
- A reminder whose due date has passed is never completed automatically.
- A dispatch never writes `is_completed`.
- Correspondence has exactly four types (`email`, `phone`, `meeting`,
  `message`).
- The Lead object check refuses an assignee who is not the creator. This
  happens because `created_by` is examined first.
- Retrieving a single row goes through the object check as well as the
  queryset.
- `mark_completed` also moves `updated_at`, because that column is `auto_now`.

## Model

| member | source | states |
|---|---|---|
| Accounts.RoleValue | accounts/models.py:5-7 | each role's stored text parses back to that role |
| Accounts.ParseRole | accounts/models.py:5-7 | a role text is accepted iff it is `manager` or `agent` |
| Accounts.AddUser | accounts/models.py:4-16 | a user is added iff the id is new and no existing user has the username or the email; the role defaults to agent; existing users are unchanged; username and email uniqueness are preserved |
| Accounts.NewUserIsAgent | accounts/models.py:10 | a user created without a role is an agent and not a manager |
| Accounts.ExactlyOneRole | accounts/models.py:21-27 | exactly one of `is_manager` and `is_agent` holds for every user |
| LeadPermissions.IsManagerOrReadOnlyGrants | leads/permissions.py:3-11 | safe methods always pass; DELETE passes iff the user is a manager; every other method passes |
| LeadPermissions.OnlyDeleteIsGated | leads/permissions.py:4-11 | the collection check grants iff the method is not DELETE or the user is a manager |
| LeadPermissions.IsOwnerOrManagerGrants | leads/permissions.py:13-24 | a manager is granted every object; with a `created_by` attribute the result is whether it names the user; otherwise the same for `assigned_to`; with neither, deny |
| LeadPermissions.AssigneeIgnoredWhenCreatorAttrExists | leads/permissions.py:18-22 | once `created_by` exists, the `assigned_to` value has no effect on the decision |
| LeadPermissions.NullCreatorDeniesNonManagers | leads/permissions.py:18-19 | a null `created_by` denies every non-manager |
| LeadPermissions.AssigneeWhoIsNotCreatorDenied | leads/permissions.py:18-22 | a non-manager assignee who is not the creator is denied |
| AccountsPermissions.IsManagerGrants | accounts/permissions.py:3-5 | grants iff the requester is authenticated and has role `manager` |
| AccountsPermissions.IsOwnerOrManagerGrants | accounts/permissions.py:7-18 | the role-text copy: role `manager` grants; otherwise `created_by`, then `assigned_to`, then deny |
| AccountsPermissions.OwnerChecksAgree | accounts/permissions.py:8-18 | the two `IsOwnerOrManager` copies decide identically for every user and object |
| Models.StatusValue | leads/models.py:9-17 | each Lead status's stored text parses back to that status |
| Models.ParseStatus | leads/models.py:9-17 | a status text is accepted iff it is one of the seven choices |
| Models.LeadPriorityValue | leads/models.py:19-24 | each Lead priority's stored text parses back to it |
| Models.ParseLeadPriority | leads/models.py:19-24 | a Lead priority text is accepted iff it is one of the four choices |
| Models.ReminderPriorityValue | leads/models.py:165-169 | each Reminder priority's stored text parses back to it |
| Models.ParseReminderPriority | leads/models.py:165-169 | a Reminder priority text is accepted iff it is one of the three choices |
| Models.CorrespondenceTypeValue | leads/models.py:132-137 | each Correspondence type's stored text parses back to it |
| Models.ParseCorrespondenceType | leads/models.py:132-137 | a Correspondence type text is accepted iff it is one of the four choices |
| Models.ChoiceSetSizes | leads/models.py:9-24 | there are 7 statuses, 4 Lead priorities, 3 Reminder priorities and 4 Correspondence types |
| Models.DeleteLead | leads/models.py:85-172 | deleting a Lead removes exactly its Notes, Reminders and Correspondence and unlinks it from every Contact's lead set; every surviving Lead, Note, Reminder and Correspondence keeps its values, and a Contact changes only by losing that Lead |
| Models.DeleteLeadPreservesValid | leads/models.py:114-172 | after a Lead is deleted with its cascades, no surviving row refers to it |
| Models.DeleteContact | leads/models.py:140 | deleting a Contact removes exactly its Correspondence; every other table, and every surviving Contact and Correspondence, keeps its values |
| Models.DeleteUser | leads/models.py:38-183 | deleting a user removes only that user; on each Lead, Contact, Note and Correspondence exactly the references to them become null and every other value stays; exactly the Reminders they created are removed, the rest unchanged |
| Models.DeleteUserPreservesValid | leads/models.py:179-183 | after a user is deleted, no surviving row refers to a missing user or row |
| Models.DeleteUserKeepsContactsValid | leads/models.py:94-99 | nulling a deleted user's Contact references keeps every Contact's links intact |
| Models.DeleteUserKeepsNotesValid | leads/models.py:116-121 | nulling a deleted user's Note references keeps every Note's Lead and creator intact |
| Models.DeleteUserKeepsCorrespondenceValid | leads/models.py:148-153 | nulling a deleted user's Correspondence references keeps every Correspondence's Contact, Lead and creator intact |
| Models.InsertLeadKeepsValid | leads/models.py:38-61 | inserting a Lead whose user references exist keeps the store consistent |
| Models.InsertNoteKeepsValid | leads/models.py:114-121 | inserting a Note on an existing Lead keeps the store consistent |
| Models.InsertReminderKeepsValid | leads/models.py:172-183 | inserting a Reminder on an existing Lead, with an existing creator, keeps the store consistent |
| Ordering.OrderIds | leads/models.py:70 | a set of ids comes out sorted by the key, as a permutation of the set |
| Serializers.Input | leads/serializers.py:12-72 | the data a serializer keeps is the payload restricted to its writable fields; no read-only field survives |
| Serializers.StampsAreReadOnly | leads/serializers.py:72 | no payload can set `created_by`, `created_at` or `updated_at`; a Lead payload cannot set `last_contacted` |
| Serializers.ValidLeadPayload | leads/serializers.py:51-57 | a valid Lead payload's `assigned_to_id` is null, omitted or an existing user |
| Serializers.ValidContactPayload | leads/serializers.py:39 | every Lead a valid Contact payload links exists |
| Serializers.ValidNotePayload | leads/serializers.py:12-18 | the Lead a valid Note payload names exists |
| Serializers.ValidCorrespondencePayload | leads/serializers.py:20-27 | the Contact a valid Correspondence payload names exists, and so does its Lead if it names one |
| Serializers.ValidReminderPayload | leads/serializers.py:29-36 | the Lead a valid Reminder payload names exists |
| Serializers.AgentIds | leads/serializers.py:51-53 | the users whose stored role text is `agent` are exactly the users for which `is_agent` holds |
| Serializers.Specs | leads/serializers.py:12-72 | no serializer validates a read-only or undeclared field |
| Serializers.Validate | leads/serializers.py:12-72 | a payload is accepted iff every validated field is acceptable; the accepted data is the writable part of the payload; a refusal names only declared fields |
| Serializers.AssigneeMustBeAgent | leads/serializers.py:51-57 | a Lead payload that names a non-null `assigned_to_id` is accepted only if that user is an agent |
| Serializers.AssigneeMayBeNullOrOmitted | leads/serializers.py:55-56 | a valid Lead payload stays valid with `assigned_to_id` set to null or left out |
| Serializers.NewLead | leads/models.py:34-35 | a new Lead has status `new` and priority `medium` unless the payload sets them; `last_contacted` is null |
| Serializers.NewContact | leads/serializers.py:39 | a Contact's lead links are optional and default to none |
| Serializers.NewCorrespondence | leads/models.py:141-146 | a Correspondence's lead is optional, and its date defaults to the creation time |
| Serializers.NewReminder | leads/models.py:176-177 | a new Reminder is incomplete with priority `medium` unless the payload sets them |
| Views.CheckPermissions | leads/views.py:18 | the classes grant the request iff every one grants; the refusal is not-authenticated for an anonymous requester, forbidden otherwise |
| Views.CheckObjectPermissions | leads/views.py:83 | the object check grants iff every class grants |
| Views.CollectionGate | leads/views.py:56 | any authenticated requester passes, except that DELETE on a Lead or a Contact needs a manager |
| Views.ObjectGate | leads/views.py:111 | each viewset's object check is exactly `IsOwnerOrManager` |
| Views.Lower | leads/views.py:124 | the lowered text keeps the length and lowers each character |
| Views.CompletedFilter | leads/views.py:122-124 | no parameter means no filter; otherwise completed reminders are wanted iff the text is "true" in any letter case |
| Views.LeadScope | leads/views.py:24-30 | a manager's Leads are the whole table; otherwise a Lead is in scope iff the user is its assignee or its creator |
| Views.ContactScope | leads/views.py:62-66 | a manager's Contacts are the whole table; otherwise a Contact is in scope iff the user created it |
| Views.NoteScope | leads/views.py:88-92 | a manager's Notes are the whole table; otherwise a Note is in scope iff the user created it |
| Views.CorrespondenceScope | leads/views.py:102-106 | a manager's Correspondence is the whole table; otherwise a row is in scope iff the user created it |
| Views.ReminderScope | leads/views.py:116-126 | a Reminder is in scope iff the user is a manager or its creator and, when `is_completed` is given, its completion equals whether the text lowers to "true" |
| Views.ScopeOfNonManager | leads/views.py:24-30 | a non-manager's Leads are exactly those they are assigned or created; their other rows are exactly those they created |
| Views.ManagerSeesEverything | leads/views.py:62-66 | a manager's scope is every row of the table |
| Views.ReminderParamFilters | leads/views.py:116-126 | with the parameter, a listed reminder's completion equals whether the text lowers to "true", and it is in the unfiltered scope |
| Views.GetObject | leads/views.py:88-92 | a lookup outside the scope is not-found; inside it, the lookup is granted iff `IsOwnerOrManager` grants the row, and forbidden otherwise; a granted row exists |
| Views.LeadObjectAccess | leads/views.py:15-30 | a Lead lookup is granted exactly to a manager or the Lead's creator |
| Views.LeadListedButRefused | leads/views.py:24-30 | a Lead is listed for a user yet refused on lookup iff they are a non-manager assignee who did not create it |
| Views.OwnerCheckRedundantOutsideLeads | leads/views.py:102-106 | for the other four kinds, a lookup is never forbidden: it is either not found or granted |
| Views.Retrieve | leads/views.py:80-92 | a detail GET succeeds iff the requester is authenticated and `get_object` grants |
| Views.List | leads/views.py:116-126 | an authenticated list returns exactly the scoped rows, each once, in the kind's default order; anonymous gets nothing |
| Views.ListingOrders | leads/models.py:189 | Leads list newest first; Reminders soonest due first; Correspondence latest date first |
| Views.CreateLead | leads/views.py:32-33 | a Lead is created iff the requester is authenticated, the payload valid and the id fresh; only that row is added, its creator is the requester and the defaults apply; the stored Lead is built from the validated payload (status, priority, assignee) |
| Views.CreateContact | leads/views.py:68-69 | a Contact is created iff the requester is authenticated, the payload valid and the id fresh; its creator is the requester; the stored Contact is built from the validated payload, its lead links included |
| Views.SaveNote | leads/views.py:40 | a Note is saved iff its id is fresh; only that row is added, and a consistent store stays consistent when its Lead and creator exist |
| Views.SaveCorrespondence | leads/views.py:76 | a Correspondence is saved iff its id is fresh; only that row is added, and a consistent store stays consistent when its references exist |
| Views.SaveReminder | leads/models.py:179-183 | saving a Reminder without a creator is refused, because the column is NOT NULL |
| Views.CreateNote | leads/views.py:80-92 | as written, a Note post succeeds iff the requester is authenticated, the payload valid and the id fresh; it adds only that row, and its creator is null; the stored Note is built from the validated payload |
| Views.CreateNoteStamped | leads/views.py:80-92 | with the requester stamped as creator, a Note post succeeds iff the requester is authenticated, the payload valid and the id fresh; it adds only that row, names its poster and keeps the store consistent; the stored Note is built from the validated payload |
| Views.CreateCorrespondence | leads/views.py:94-106 | as written, a Correspondence post succeeds iff the requester is authenticated, the payload valid and the id fresh; it adds only that row, and its creator is null; the stored row is built from the validated payload |
| Views.CreateCorrespondenceStamped | leads/views.py:94-106 | with the requester stamped, a Correspondence post succeeds iff the requester is authenticated, the payload valid and the id fresh; it adds only that row, names its poster and keeps the store consistent; the stored row is built from the validated payload |
| Views.CreateReminder | leads/views.py:108-126 | as written, a Reminder post never creates a row and never changes the store |
| Views.CreateReminderStamped | leads/views.py:108-126 | with the requester stamped, a Reminder is created iff the requester is authenticated, the payload valid and the id fresh; only that row is added, and it names its poster; the stored Reminder is built from the validated payload |
| Views.AddNote | leads/views.py:35-42 | a Note is created iff the requester is authenticated, `get_object` grants the Lead, the payload is valid and the id is fresh; it belongs to that Lead and names the requester; an invalid payload creates nothing; the stored Note is built from the validated payload; a 400 comes only after the lookup granted the Lead |
| Views.AddReminder | leads/views.py:44-51 | a Reminder is created iff the requester is authenticated, `get_object` grants the Lead, the payload is valid and the id is fresh; it belongs to that Lead and names the requester; the stored Reminder is built from the validated payload (due date, priority, completion); a 400 comes only after the lookup granted the Lead |
| Views.AddCorrespondence | leads/views.py:71-78 | a Correspondence is created iff the requester is authenticated, `get_object` grants the Contact, the payload is valid and the id is fresh; it belongs to that Contact and names the requester; the stored row is built from the validated payload; a 400 comes only after the lookup granted the Contact |
| Views.MarkCompleted | leads/views.py:128-133 | completes a reminder iff the lookup grants; only that row's flag and update time change; no completed reminder becomes incomplete; a consistent store stays consistent |
| Views.MarkCompletedIdempotent | leads/views.py:128-133 | marking the same reminder completed twice at the same moment leaves the store as marking it once |
| Views.DeleteRow | leads/models.py:114-172 | the row leaves its table; deleting a Note, Correspondence or Reminder changes no other table and no surviving row |
| Views.Destroy | leads/views.py:18 | a row is deleted iff the requester is authenticated, is a manager for Leads and Contacts, and the lookup (with the request's `is_completed` parameter) grants; then the store is the row's deletion with its cascades; otherwise nothing changes; the store stays consistent |
| Views.DeleteRowKeepsValid | leads/models.py:114-172 | deleting any row with its cascades keeps the store consistent |
| Views.AssignedAgentListsButCannotOpen | leads/permissions.py:18-22 | an agent assigned to a Lead they did not create sees it listed, but retrieve, delete and `add_note` are all forbidden |
| Views.CreatedLeadRetrievable | leads/views.py:32-33 | whoever creates a Lead can then retrieve it |
| Views.PostedNoteLostToItsAgent | leads/views.py:80-92 | a non-manager who posts a Note on its list route can no longer find it |
| Views.StampedNoteRetrievable | leads/views.py:88-92 | with the creator stamped, the poster can retrieve their Note |
| Views.PostedCorrespondenceLostToItsAgent | leads/views.py:94-106 | a non-manager who posts a Correspondence on its list route can no longer find it |
| Views.StampedCorrespondenceRetrievable | leads/views.py:102-106 | with the creator stamped, the poster can retrieve their Correspondence |
| Views.PostedReminderRefused | leads/views.py:108-111 | every valid Reminder post on its list route ends in an integrity error |
| Views.StampedReminderRetrievable | leads/views.py:116-120 | with the creator stamped, the poster can retrieve their Reminder |
| Views.OrphanedRowsOnlyForManagers | leads/models.py:94-99 | once its creator is deleted, a Contact, Note or Correspondence is in no non-manager's scope |
| Tasks.DayOf | leads/tasks.py:41 | a timestamp lies within the day it is mapped to |
| Tasks.TomorrowIsNextDay | leads/tasks.py:39 | the date of now plus one day is today's date plus one |
| Tasks.SendReminderEmail | leads/tasks.py:8-35 | a missing or completed reminder yields the not-found result; otherwise the mail goes only to the creator's email, with subject "Reminder: " and the title; a transport failure is returned as a failure; an intact store never hits a broken reference |
| Tasks.PendingReminderMailedOnce | leads/tasks.py:25-31 | in an intact store, an incomplete reminder yields exactly one mail, sent iff the transport succeeds |
| Tasks.CompletedReminderNeverMailed | leads/tasks.py:11 | once completed, a reminder is never mailed again |
| Tasks.DrainQueue | leads/tasks.py:9-46 | every queued dispatch sees the same store; the outbox is exactly the sent mails in queue order, so a failed dispatch loses no other mail |
| Tasks.SentMailsAreSent | leads/tasks.py:25-33 | every mail in the sent list comes from a dispatch that was sent |
| Tasks.SentMailsKeepEverySent | leads/tasks.py:45-46 | every sent dispatch's mail is in the sent list, whatever failed around it |
| Tasks.AllSentMailsInOrder | leads/tasks.py:45-46 | when every dispatch is sent, the sent list is one mail per dispatch, in order |
| Tasks.DueTomorrow | leads/tasks.py:39-43 | a reminder is selected iff it is incomplete and due on the day after today |
| Tasks.SweepWindowIsNextCalendarDay | leads/tasks.py:39-43 | an incomplete reminder is selected iff it is due between the next midnight and the one after |
| Tasks.SendDailyReminders | leads/tasks.py:37-48 | enqueues each selected reminder exactly once, in due-date order, and the count equals the number selected; in an intact store each enqueued dispatch sends its mail |

## Left out

- Update and partial update (PUT/PATCH) effects are not modelled. Their permission gate is the one `Retrieve` and `CollectionGate` state.
- Search and ordering query parameters (`SearchFilter`, `OrderingFilter`, `DjangoFilterBackend`) are left out; only each kind's default `Meta.ordering` is modelled.
- Timezone handling is not modelled: timestamps are UTC seconds, and the calendar date is the UTC day.
- UUID generation is a caller-chosen `newId`.
- The mail transport and Celery's `.delay` queuing are left out. The transport outcome is a parameter, and the queue is a sequence of ids. The mail body text is not modelled; the mail carries its fields instead.
- Free-text fields, `max_length`, email format, the decimal `value` and the other descriptive columns are not modelled: no rule reads them.
- `Views.Lower` lowers ASCII letters only. Python's `str.lower()` also lowers other scripts, but none of them can lower to "true".
- The audit-log registration and the `history` field are left out.
- `Views.HasPermission` refuses an anonymous requester in `IsManagerOrReadOnly`. Every list of permission classes starts with `IsAuthenticated`, so the source never reaches that case.
- The Reminder serializer leaves `is_completed` writable, so a PUT or PATCH can set a reminder back to incomplete. Only `mark_completed` is modelled as a state change.
- The beat schedule names two tasks that leads/tasks.py does not define, so they are not modelled. The broker configuration and routing are left out too.
- The user directory's admin screens and the default-superuser command are left out.
- Concurrency between workers and request threads is not modelled.
- Tasks.SendReminderEmail returns no store. The function has no way to write a row, so "dispatch never modifies the reminder" holds by construction rather than through an `ensures`.

## Findings

| source | as written | input that shows it | evidently intended | confidence | as-written member | corrected member |
|---|---|---|---|---|---|---|
| leads/views.py:80-92 | `NoteViewSet` has no `perform_create`, so a Note posted on its list route is saved with a null `created_by` | an agent POSTs a valid Note to the Note list route, then GETs it | stamp the requester as creator, as the Lead and Contact viewsets do, so the poster can read their Note | not executed | Views.PostedNoteLostToItsAgent | Views.StampedNoteRetrievable |
| leads/views.py:94-106 | `CorrespondenceViewSet` has no `perform_create`, so a posted Correspondence gets a null `created_by` | an agent POSTs a valid Correspondence to its list route, then GETs it | stamp the requester as creator | not executed | Views.PostedCorrespondenceLostToItsAgent | Views.StampedCorrespondenceRetrievable |
| leads/views.py:108-126 | `ReminderViewSet` has no `perform_create`, and `Reminder.created_by` is NOT NULL, so every valid Reminder post fails with an integrity error | any authenticated user POSTs a valid Reminder to the Reminder list route | stamp the requester as creator so that the Reminder is created | not executed | Views.PostedReminderRefused | Views.StampedReminderRetrievable |

=== FILE: accounts.dfy ===
/**
 * The user account of the CRM: a closed role enumeration stored as its text
 * value, the two role predicates, and the rules of the user table (primary
 * key, unique email, default role).
 */
module Accounts {
  import opened Wrappers

  type UserId = nat

  /** The role choices; the role column stores the text value of a choice. */
  datatype Role = Manager | Agent

  /** The text value stored for a role. */
  function RoleValue(role: Role): (value: string)
    ensures ParseRole(value) == Some(role)
  {
    match role
    case Manager => "manager"
    case Agent => "agent"
  }

  /** Reads a stored role text back; only the two choice values are roles. */
  function ParseRole(value: string): (role: Option<Role>)
    ensures role.Some? <==> value in {"manager", "agent"}
  {
    if value == "manager" then Some(Manager)
    else if value == "agent" then Some(Agent)
    else None
  }

  /** A user created without an explicit role is an agent. */
  const DefaultRole: Role := Agent

  /** A user row: the inherited unique `username`, the unique `email` and the role. */
  datatype User = User(id: UserId, username: string, email: string, role: Role)

  /** The `is_manager` property. */
  predicate IsManager(user: User) {
    user.role == Manager
  }

  /** The `is_agent` property. */
  predicate IsAgent(user: User) {
    user.role == Agent
  }

  /** Every user is exactly one of manager and agent. */
  lemma ExactlyOneRole(user: User)
    ensures IsManager(user) != IsAgent(user)
  {
  }

  /** Who is making a request: no identity, or an authenticated user. */
  datatype Requester = Anonymous | Authenticated(user: User)

  /** The user table, keyed by primary key. */
  type Directory = map<UserId, User>

  /** Each row sits under its own primary key, and no two rows share a username or an email. */
  predicate WellFormed(users: Directory) {
    && (forall id | id in users :: users[id].id == id)
    && (forall a, b | a in users && b in users && users[a].username == users[b].username :: a == b)
    && (forall a, b | a in users && b in users && users[a].email == users[b].email :: a == b)
  }

  datatype AccountError = DuplicateId | DuplicateUsername | DuplicateEmail

  /**
   * Inserts a user row. The primary key, the unique username column and the
   * unique email column each reject a duplicate; an omitted role takes the default.
   */
  function AddUser(users: Directory, id: UserId, username: string, email: string, role: Option<Role>): (r: Result<Directory, AccountError>)
    ensures r.Ok? <==>
              && id !in users
              && (forall u | u in users :: users[u].username != username)
              && (forall u | u in users :: users[u].email != email)
    ensures r.Ok? ==> r.value.Keys == users.Keys + {id}
    ensures r.Ok? ==> r.value[id] == User(id, username, email, role.GetOr(DefaultRole))
    ensures r.Ok? ==> forall u | u in users :: r.value[u] == users[u]
    ensures r.Ok? && WellFormed(users) ==> WellFormed(r.value)
  {
    if id in users then Err(DuplicateId)
    else if exists u | u in users :: users[u].username == username then Err(DuplicateUsername)
    else if exists u | u in users :: users[u].email == email then Err(DuplicateEmail)
    else Ok(users[id := User(id, username, email, role.GetOr(DefaultRole))])
  }

  /** A user added without a role is an agent, not a manager. */
  lemma NewUserIsAgent(users: Directory, id: UserId, username: string, email: string)
    requires AddUser(users, id, username, email, None).Ok?
    ensures IsAgent(AddUser(users, id, username, email, None).value[id])
    ensures !IsManager(AddUser(users, id, username, email, None).value[id])
  {
  }
}

=== FILE: accounts_permissions.dfy ===
/**
 * The permission classes of the accounts app. They test the role through its
 * stored text value rather than through `is_manager`.
 */
module AccountsPermissions {
  import opened Wrappers
  import opened Accounts
  import opened Ownership
  import LeadPermissions

  /** `IsManager.has_permission`: authenticated, with role text "manager". */
  function IsManagerGrants(req: Requester): (granted: bool)
    ensures granted <==> req.Authenticated? && IsManager(req.user)
  {
    req.Authenticated? && RoleValue(req.user.role) == "manager"
  }

  /** `IsOwnerOrManager.has_object_permission`, role read through its text value. */
  function IsOwnerOrManagerGrants(user: User, obj: Owned): (granted: bool)
    ensures RoleValue(user.role) == "manager" ==> granted
    ensures RoleValue(user.role) != "manager" && obj.createdBy.Present? ==>
              (granted <==> RefersTo(obj.createdBy, user))
    ensures RoleValue(user.role) != "manager" && obj.createdBy.Absent? && obj.assignedTo.Present? ==>
              (granted <==> RefersTo(obj.assignedTo, user))
    ensures RoleValue(user.role) != "manager" && obj.createdBy.Absent? && obj.assignedTo.Absent? ==> !granted
  {
    if RoleValue(user.role) == "manager" then true
    else if obj.createdBy.Present? then obj.createdBy.ref == Some(user.id)
    else if obj.assignedTo.Present? then obj.assignedTo.ref == Some(user.id)
    else false
  }

  /** The two copies of the owner-or-manager check decide every case alike. */
  lemma OwnerChecksAgree(user: User, obj: Owned)
    ensures IsOwnerOrManagerGrants(user, obj) == LeadPermissions.IsOwnerOrManagerGrants(user, obj)
  {
    assert RoleValue(user.role) == "manager" <==> IsManager(user);
  }
}

=== FILE: lead_permissions.dfy ===
/**
 * The permission classes of the leads app: a collection-level check that
 * reserves DELETE for managers, and an object-level owner-or-manager check.
 */
module LeadPermissions {
  import opened Wrappers
  import opened Accounts
  import opened Ownership

  /** The request methods the framework treats as read-only. */
  const SafeMethods: set<string> := {"GET", "HEAD", "OPTIONS"}

  /** `IsManagerOrReadOnly.has_permission` for an authenticated user. */
  function IsManagerOrReadOnlyGrants(user: User, verb: string): (granted: bool)
    ensures verb in SafeMethods ==> granted
    ensures verb == "DELETE" ==> (granted <==> IsManager(user))
    ensures verb !in SafeMethods && verb != "DELETE" ==> granted
  {
    if verb in SafeMethods then true
    else if verb == "DELETE" then IsManager(user)
    else true
  }

  /** Only a DELETE by a non-manager is refused: the safe-verb test never changes the answer. */
  lemma OnlyDeleteIsGated(user: User, verb: string)
    ensures IsManagerOrReadOnlyGrants(user, verb) <==> verb != "DELETE" || IsManager(user)
  {
  }

  /** `IsOwnerOrManager.has_object_permission`, role read through `is_manager`. */
  function IsOwnerOrManagerGrants(user: User, obj: Owned): (granted: bool)
    ensures IsManager(user) ==> granted
    ensures !IsManager(user) && obj.createdBy.Present? ==> (granted <==> RefersTo(obj.createdBy, user))
    ensures !IsManager(user) && obj.createdBy.Absent? && obj.assignedTo.Present? ==>
              (granted <==> RefersTo(obj.assignedTo, user))
    ensures !IsManager(user) && obj.createdBy.Absent? && obj.assignedTo.Absent? ==> !granted
  {
    if IsManager(user) then true
    else if obj.createdBy.Present? then obj.createdBy.ref == Some(user.id)
    else if obj.assignedTo.Present? then obj.assignedTo.ref == Some(user.id)
    else false
  }

  /** When `created_by` exists, the value of `assigned_to` never affects the decision. */
  lemma AssigneeIgnoredWhenCreatorAttrExists(user: User, creator: Option<UserId>, a1: Attr, a2: Attr)
    ensures IsOwnerOrManagerGrants(user, Owned(Present(creator), a1))
         == IsOwnerOrManagerGrants(user, Owned(Present(creator), a2))
  {
  }

  /** A null `created_by` denies every non-manager, whoever the assignee is. */
  lemma NullCreatorDeniesNonManagers(user: User, assignee: Attr)
    requires !IsManager(user)
    ensures !IsOwnerOrManagerGrants(user, Owned(Present(None), assignee))
  {
  }

  /** An object with `created_by` and `assigned_to` both present, assigned to a non-manager who did not create it, is refused to them. */
  lemma AssigneeWhoIsNotCreatorDenied(user: User, creator: Option<UserId>)
    requires !IsManager(user) && creator != Some(user.id)
    ensures !IsOwnerOrManagerGrants(user, Owned(Present(creator), Present(Some(user.id))))
  {
  }
}

=== FILE: models.dfy ===
/**
 * The five CRM entities, their choice sets and defaults, the store that holds
 * them, the referential integrity the database keeps, and the deletion rules
 * (cascade or set-null) of every foreign key.
 */
module Models {
  import opened Wrappers
  import opened Accounts
  import opened Ownership

  /** Primary key of an entity row (a UUID in the database). */
  type Id = nat

  /** Seconds since the Unix epoch, in UTC. */
  type Timestamp = int

  // ---------------------------------------------------------------- choices

  datatype LeadStatus = New | Contacted | Qualified | Proposal | Negotiation | ClosedWon | ClosedLost

  const StatusChoices: set<string> :=
    {"new", "contacted", "qualified", "proposal", "negotiation", "closed_won", "closed_lost"}

  function StatusValue(status: LeadStatus): (value: string)
    ensures ParseStatus(value) == Some(status)
  {
    match status
    case New => "new"
    case Contacted => "contacted"
    case Qualified => "qualified"
    case Proposal => "proposal"
    case Negotiation => "negotiation"
    case ClosedWon => "closed_won"
    case ClosedLost => "closed_lost"
  }

  function ParseStatus(value: string): (status: Option<LeadStatus>)
    ensures status.Some? <==> value in StatusChoices
  {
    if value == "new" then Some(New)
    else if value == "contacted" then Some(Contacted)
    else if value == "qualified" then Some(Qualified)
    else if value == "proposal" then Some(Proposal)
    else if value == "negotiation" then Some(Negotiation)
    else if value == "closed_won" then Some(ClosedWon)
    else if value == "closed_lost" then Some(ClosedLost)
    else None
  }

  datatype LeadPriority = Low | Medium | High | Critical

  const LeadPriorityChoices: set<string> := {"low", "medium", "high", "critical"}

  function LeadPriorityValue(priority: LeadPriority): (value: string)
    ensures ParseLeadPriority(value) == Some(priority)
  {
    match priority
    case Low => "low"
    case Medium => "medium"
    case High => "high"
    case Critical => "critical"
  }

  function ParseLeadPriority(value: string): (priority: Option<LeadPriority>)
    ensures priority.Some? <==> value in LeadPriorityChoices
  {
    if value == "low" then Some(LeadPriority.Low)
    else if value == "medium" then Some(LeadPriority.Medium)
    else if value == "high" then Some(LeadPriority.High)
    else if value == "critical" then Some(Critical)
    else None
  }

  datatype ReminderPriority = Low | Medium | High

  const ReminderPriorityChoices: set<string> := {"low", "medium", "high"}

  function ReminderPriorityValue(priority: ReminderPriority): (value: string)
    ensures ParseReminderPriority(value) == Some(priority)
  {
    match priority
    case Low => "low"
    case Medium => "medium"
    case High => "high"
  }

  function ParseReminderPriority(value: string): (priority: Option<ReminderPriority>)
    ensures priority.Some? <==> value in ReminderPriorityChoices
  {
    if value == "low" then Some(ReminderPriority.Low)
    else if value == "medium" then Some(ReminderPriority.Medium)
    else if value == "high" then Some(ReminderPriority.High)
    else None
  }

  datatype CorrespondenceType = Email | Phone | Meeting | Message

  const CorrespondenceTypeChoices: set<string> := {"email", "phone", "meeting", "message"}

  function CorrespondenceTypeValue(kind: CorrespondenceType): (value: string)
    ensures ParseCorrespondenceType(value) == Some(kind)
  {
    match kind
    case Email => "email"
    case Phone => "phone"
    case Meeting => "meeting"
    case Message => "message"
  }

  function ParseCorrespondenceType(value: string): (kind: Option<CorrespondenceType>)
    ensures kind.Some? <==> value in CorrespondenceTypeChoices
  {
    if value == "email" then Some(Email)
    else if value == "phone" then Some(Phone)
    else if value == "meeting" then Some(Meeting)
    else if value == "message" then Some(Message)
    else None
  }

  /** The choice sets have 7, 4, 3 and 4 distinct values. */
  lemma ChoiceSetSizes()
    ensures |StatusChoices| == 7
    ensures |LeadPriorityChoices| == 4
    ensures |ReminderPriorityChoices| == 3
    ensures |CorrespondenceTypeChoices| == 4
  {
  }

  const DefaultLeadStatus: LeadStatus := New
  const DefaultLeadPriority: LeadPriority := LeadPriority.Medium
  const DefaultReminderPriority: ReminderPriority := ReminderPriority.Medium

  // ---------------------------------------------------------------- entities
  // Free-text columns that no rule reads (company, phone, address, ...) are
  // not represented.

  datatype Lead = Lead(
    firstName: string,
    lastName: string,
    email: string,
    status: LeadStatus,
    priority: LeadPriority,
    assignedTo: Option<UserId>,
    createdBy: Option<UserId>,
    createdAt: Timestamp,
    updatedAt: Timestamp,
    lastContacted: Option<Timestamp>)

  datatype Contact = Contact(
    firstName: string,
    lastName: string,
    email: string,
    leads: set<Id>,
    createdBy: Option<UserId>,
    createdAt: Timestamp,
    updatedAt: Timestamp)

  datatype Note = Note(
    lead: Id,
    content: string,
    createdBy: Option<UserId>,
    createdAt: Timestamp,
    updatedAt: Timestamp)

  datatype Correspondence = Correspondence(
    contact: Id,
    lead: Option<Id>,
    kind: CorrespondenceType,
    subject: string,
    content: string,
    date: Timestamp,
    createdBy: Option<UserId>,
    createdAt: Timestamp,
    updatedAt: Timestamp)

  /** A reminder's creator is a required (non-null) reference. */
  datatype Reminder = Reminder(
    lead: Id,
    title: string,
    description: string,
    dueDate: Timestamp,
    priority: ReminderPriority,
    isCompleted: bool,
    createdBy: UserId,
    createdAt: Timestamp,
    updatedAt: Timestamp)

  /** The `str()` of a Lead, used where a message mentions the lead. */
  function LeadName(lead: Lead): string {
    lead.firstName + " " + lead.lastName
  }

  // -------------------------------------------- ownership seen by permissions
  // Lead has both `created_by` and `assigned_to`; the other four kinds have
  // only `created_by`.

  function LeadOwnership(lead: Lead): Owned {
    Owned(Present(lead.createdBy), Present(lead.assignedTo))
  }

  function ContactOwnership(contact: Contact): Owned {
    Owned(Present(contact.createdBy), Absent)
  }

  function NoteOwnership(note: Note): Owned {
    Owned(Present(note.createdBy), Absent)
  }

  function CorrespondenceOwnership(c: Correspondence): Owned {
    Owned(Present(c.createdBy), Absent)
  }

  function ReminderOwnership(reminder: Reminder): Owned {
    Owned(Present(Some(reminder.createdBy)), Absent)
  }

  // ------------------------------------------------------------------- store

  datatype Store = Store(
    users: Directory,
    leads: map<Id, Lead>,
    contacts: map<Id, Contact>,
    notes: map<Id, Note>,
    correspondence: map<Id, Correspondence>,
    reminders: map<Id, Reminder>)

  /** A nullable user reference is null or names an existing user. */
  predicate UserRef(users: Directory, ref: Option<UserId>) {
    ref.Some? ==> ref.value in users
  }

  predicate LeadsValid(st: Store) {
    forall id | id in st.leads ::
      UserRef(st.users, st.leads[id].createdBy) && UserRef(st.users, st.leads[id].assignedTo)
  }

  predicate ContactsValid(st: Store) {
    forall id | id in st.contacts ::
      UserRef(st.users, st.contacts[id].createdBy) && st.contacts[id].leads <= st.leads.Keys
  }

  predicate NotesValid(st: Store) {
    forall id | id in st.notes ::
      st.notes[id].lead in st.leads && UserRef(st.users, st.notes[id].createdBy)
  }

  predicate CorrespondenceValid(st: Store) {
    forall id | id in st.correspondence ::
      && st.correspondence[id].contact in st.contacts
      && (st.correspondence[id].lead.Some? ==> st.correspondence[id].lead.value in st.leads)
      && UserRef(st.users, st.correspondence[id].createdBy)
  }

  predicate RemindersValid(st: Store) {
    forall id | id in st.reminders ::
      st.reminders[id].lead in st.leads && st.reminders[id].createdBy in st.users
  }

  /** Referential integrity as the database enforces it. */
  predicate Valid(st: Store) {
    && WellFormed(st.users)
    && LeadsValid(st)
    && ContactsValid(st)
    && NotesValid(st)
    && CorrespondenceValid(st)
    && RemindersValid(st)
  }

  // ---------------------------------------------------------------- deletion

  /**
   * Deleting a Lead deletes its notes, reminders and correspondence
   * (on_delete CASCADE) and removes it from every contact's lead set.
   */
  function DeleteLead(st: Store, id: Id): (r: Store)
    ensures r.users == st.users
    ensures r.leads.Keys == st.leads.Keys - {id}
    ensures forall k | k in r.leads :: r.leads[k] == st.leads[k]
    ensures r.contacts.Keys == st.contacts.Keys
    ensures forall k | k in r.contacts :: id !in r.contacts[k].leads
    ensures forall k | k in r.contacts :: r.contacts[k] == st.contacts[k].(leads := st.contacts[k].leads - {id})
    ensures forall k | k in st.notes :: k in r.notes <==> st.notes[k].lead != id
    ensures forall k | k in st.reminders :: k in r.reminders <==> st.reminders[k].lead != id
    ensures forall k | k in st.correspondence :: k in r.correspondence <==> st.correspondence[k].lead != Some(id)
    ensures r.notes.Keys <= st.notes.Keys && r.reminders.Keys <= st.reminders.Keys
    ensures r.correspondence.Keys <= st.correspondence.Keys
    ensures forall k | k in r.notes :: r.notes[k] == st.notes[k]
    ensures forall k | k in r.reminders :: r.reminders[k] == st.reminders[k]
    ensures forall k | k in r.correspondence :: r.correspondence[k] == st.correspondence[k]
  {
    Store(
      st.users,
      map k | k in st.leads && k != id :: st.leads[k],
      map k | k in st.contacts :: st.contacts[k].(leads := st.contacts[k].leads - {id}),
      map k | k in st.notes && st.notes[k].lead != id :: st.notes[k],
      map k | k in st.correspondence && st.correspondence[k].lead != Some(id) :: st.correspondence[k],
      map k | k in st.reminders && st.reminders[k].lead != id :: st.reminders[k])
  }

  /** With its cascades, deleting a Lead leaves no row referring to it. */
  lemma DeleteLeadPreservesValid(st: Store, id: Id)
    requires Valid(st)
    ensures Valid(DeleteLead(st, id))
  {
    var r := DeleteLead(st, id);
    assert LeadsValid(r);
    assert ContactsValid(r) by {
      forall k | k in r.contacts
        ensures UserRef(r.users, r.contacts[k].createdBy) && r.contacts[k].leads <= r.leads.Keys
      {
        assert r.contacts[k] == st.contacts[k].(leads := st.contacts[k].leads - {id});
      }
    }
    assert NotesValid(r) by {
      forall k | k in r.notes ensures r.notes[k].lead in r.leads && UserRef(r.users, r.notes[k].createdBy) {
        assert r.notes[k] == st.notes[k];
      }
    }
    assert CorrespondenceValid(r) by {
      forall k | k in r.correspondence
        ensures && r.correspondence[k].contact in r.contacts
                && (r.correspondence[k].lead.Some? ==> r.correspondence[k].lead.value in r.leads)
                && UserRef(r.users, r.correspondence[k].createdBy)
      {
        assert r.correspondence[k] == st.correspondence[k];
      }
    }
    assert RemindersValid(r) by {
      forall k | k in r.reminders ensures r.reminders[k].lead in r.leads && r.reminders[k].createdBy in r.users {
        assert r.reminders[k] == st.reminders[k];
      }
    }
  }

  /** Deleting a Contact deletes its correspondence (on_delete CASCADE). */
  function DeleteContact(st: Store, id: Id): (r: Store)
    ensures r.users == st.users && r.leads == st.leads && r.notes == st.notes && r.reminders == st.reminders
    ensures r.contacts.Keys == st.contacts.Keys - {id}
    ensures forall k | k in st.correspondence :: k in r.correspondence <==> st.correspondence[k].contact != id
    ensures r.correspondence.Keys <= st.correspondence.Keys
    ensures forall k | k in r.contacts :: r.contacts[k] == st.contacts[k]
    ensures forall k | k in r.correspondence :: r.correspondence[k] == st.correspondence[k]
    ensures Valid(st) ==> Valid(r)
  {
    st.(contacts := map k | k in st.contacts && k != id :: st.contacts[k],
        correspondence := map k | k in st.correspondence && st.correspondence[k].contact != id :: st.correspondence[k])
  }

  /** A reference to the removed user becomes null; any other stays. */
  function Unlink(ref: Option<UserId>, uid: UserId): Option<UserId> {
    if ref == Some(uid) then None else ref
  }

  // Each table's part of a user deletion.

  function UnlinkLeads(leads: map<Id, Lead>, uid: UserId): (r: map<Id, Lead>)
    ensures r.Keys == leads.Keys
    ensures forall k | k in r :: r[k].createdBy != Some(uid) && r[k].assignedTo != Some(uid)
    ensures forall k | k in r :: r[k] == leads[k].(createdBy := Unlink(leads[k].createdBy, uid),
                                                   assignedTo := Unlink(leads[k].assignedTo, uid))
  {
    map k | k in leads ::
      leads[k].(createdBy := Unlink(leads[k].createdBy, uid), assignedTo := Unlink(leads[k].assignedTo, uid))
  }

  function UnlinkContacts(contacts: map<Id, Contact>, uid: UserId): (r: map<Id, Contact>)
    ensures r.Keys == contacts.Keys
    ensures forall k | k in r :: r[k] == contacts[k].(createdBy := Unlink(contacts[k].createdBy, uid))
  {
    map k | k in contacts :: contacts[k].(createdBy := Unlink(contacts[k].createdBy, uid))
  }

  function UnlinkNotes(notes: map<Id, Note>, uid: UserId): (r: map<Id, Note>)
    ensures r.Keys == notes.Keys
    ensures forall k | k in r :: r[k] == notes[k].(createdBy := Unlink(notes[k].createdBy, uid))
  {
    map k | k in notes :: notes[k].(createdBy := Unlink(notes[k].createdBy, uid))
  }

  function UnlinkCorrespondence(rows: map<Id, Correspondence>, uid: UserId): (r: map<Id, Correspondence>)
    ensures r.Keys == rows.Keys
    ensures forall k | k in r :: r[k] == rows[k].(createdBy := Unlink(rows[k].createdBy, uid))
  {
    map k | k in rows :: rows[k].(createdBy := Unlink(rows[k].createdBy, uid))
  }

  function DropRemindersOf(reminders: map<Id, Reminder>, uid: UserId): (r: map<Id, Reminder>)
    ensures forall k | k in reminders :: k in r <==> reminders[k].createdBy != uid
    ensures r.Keys <= reminders.Keys
    ensures forall k | k in r :: r[k] == reminders[k]
  {
    map k | k in reminders && reminders[k].createdBy != uid :: reminders[k]
  }

  /**
   * Deleting a user nulls `created_by` on leads, contacts, notes and
   * correspondence and `assigned_to` on leads (on_delete SET_NULL), and
   * deletes the user's reminders (on_delete CASCADE).
   */
  function DeleteUser(st: Store, uid: UserId): (r: Store)
    ensures r.users.Keys == st.users.Keys - {uid}
    ensures forall k | k in r.users :: r.users[k] == st.users[k]
    ensures r.leads.Keys == st.leads.Keys && r.contacts.Keys == st.contacts.Keys
    ensures r.notes.Keys == st.notes.Keys && r.correspondence.Keys == st.correspondence.Keys
    ensures forall k | k in r.leads :: r.leads[k].createdBy != Some(uid) && r.leads[k].assignedTo != Some(uid)
    ensures forall k | k in r.contacts :: r.contacts[k].createdBy != Some(uid)
    ensures forall k | k in r.notes :: r.notes[k].createdBy != Some(uid)
    ensures forall k | k in r.correspondence :: r.correspondence[k].createdBy != Some(uid)
    ensures forall k | k in st.reminders :: k in r.reminders <==> st.reminders[k].createdBy != uid
    ensures r.reminders.Keys <= st.reminders.Keys
    ensures forall k | k in r.reminders :: r.reminders[k] == st.reminders[k]
    ensures forall k | k in st.leads && st.leads[k].createdBy != Some(uid) && st.leads[k].assignedTo != Some(uid) ::
              r.leads[k] == st.leads[k]
    ensures forall k | k in r.leads :: r.leads[k] == st.leads[k].(createdBy := Unlink(st.leads[k].createdBy, uid),
                                                                   assignedTo := Unlink(st.leads[k].assignedTo, uid))
    ensures forall k | k in r.contacts :: r.contacts[k] == st.contacts[k].(createdBy := Unlink(st.contacts[k].createdBy, uid))
    ensures forall k | k in r.notes :: r.notes[k] == st.notes[k].(createdBy := Unlink(st.notes[k].createdBy, uid))
    ensures forall k | k in r.correspondence ::
              r.correspondence[k] == st.correspondence[k].(createdBy := Unlink(st.correspondence[k].createdBy, uid))
  {
    Store(
      map k | k in st.users && k != uid :: st.users[k],
      UnlinkLeads(st.leads, uid),
      UnlinkContacts(st.contacts, uid),
      UnlinkNotes(st.notes, uid),
      UnlinkCorrespondence(st.correspondence, uid),
      DropRemindersOf(st.reminders, uid))
  }

  /** Removing a user keeps the store referentially intact. */
  lemma DeleteUserPreservesValid(st: Store, uid: UserId)
    requires Valid(st)
    ensures Valid(DeleteUser(st, uid))
  {
    DeleteUserKeepsUsersWellFormed(st, uid);
    DeleteUserKeepsLeadsValid(st, uid);
    DeleteUserKeepsContactsValid(st, uid);
    DeleteUserKeepsNotesValid(st, uid);
    DeleteUserKeepsCorrespondenceValid(st, uid);
    DeleteUserKeepsRemindersValid(st, uid);
  }

  lemma DeleteUserKeepsUsersWellFormed(st: Store, uid: UserId)
    requires WellFormed(st.users)
    ensures WellFormed(DeleteUser(st, uid).users)
  {
  }

  lemma DeleteUserKeepsLeadsValid(st: Store, uid: UserId)
    requires LeadsValid(st)
    ensures LeadsValid(DeleteUser(st, uid))
  {
  }

  lemma DeleteUserKeepsRemindersValid(st: Store, uid: UserId)
    requires RemindersValid(st)
    ensures RemindersValid(DeleteUser(st, uid))
  {
  }

  lemma DeleteUserKeepsContactsValid(st: Store, uid: UserId)
    requires ContactsValid(st)
    ensures ContactsValid(DeleteUser(st, uid))
  {
    var r := DeleteUser(st, uid);
    forall k | k in r.contacts
      ensures UserRef(r.users, r.contacts[k].createdBy) && r.contacts[k].leads <= r.leads.Keys
    {
      assert r.contacts[k].leads == st.contacts[k].leads;
    }
  }

  lemma DeleteUserKeepsNotesValid(st: Store, uid: UserId)
    requires NotesValid(st)
    ensures NotesValid(DeleteUser(st, uid))
  {
    var r := DeleteUser(st, uid);
    forall k | k in r.notes ensures r.notes[k].lead in r.leads && UserRef(r.users, r.notes[k].createdBy) {
      assert r.notes[k].lead == st.notes[k].lead;
    }
  }

  lemma DeleteUserKeepsCorrespondenceValid(st: Store, uid: UserId)
    requires CorrespondenceValid(st)
    ensures CorrespondenceValid(DeleteUser(st, uid))
  {
    var r := DeleteUser(st, uid);
    forall k | k in r.correspondence
      ensures && r.correspondence[k].contact in r.contacts
              && (r.correspondence[k].lead.Some? ==> r.correspondence[k].lead.value in r.leads)
              && UserRef(r.users, r.correspondence[k].createdBy)
    {
      assert r.correspondence[k].contact == st.correspondence[k].contact;
      assert r.correspondence[k].lead == st.correspondence[k].lead;
    }
  }

  // ------------------------------------------------- integrity of insertions

  /** Inserting a Lead whose user references exist keeps the store intact. */
  lemma InsertLeadKeepsValid(st: Store, id: Id, lead: Lead)
    ensures Valid(st) && UserRef(st.users, lead.createdBy) && UserRef(st.users, lead.assignedTo) ==>
              Valid(st.(leads := st.leads[id := lead]))
  {
    if Valid(st) && UserRef(st.users, lead.createdBy) && UserRef(st.users, lead.assignedTo) {
      var r := st.(leads := st.leads[id := lead]);
      assert LeadsValid(r);
      assert ContactsValid(r);
      assert NotesValid(r);
      assert CorrespondenceValid(r);
      assert RemindersValid(r);
    }
  }

  /** Inserting a Contact whose references exist keeps the store intact. */
  lemma InsertContactKeepsValid(st: Store, id: Id, contact: Contact)
    ensures Valid(st) && UserRef(st.users, contact.createdBy) && contact.leads <= st.leads.Keys ==>
              Valid(st.(contacts := st.contacts[id := contact]))
  {
    if Valid(st) && UserRef(st.users, contact.createdBy) && contact.leads <= st.leads.Keys {
      var r := st.(contacts := st.contacts[id := contact]);
      assert ContactsValid(r);
      assert CorrespondenceValid(r);
    }
  }

  /** Inserting a Note whose references exist keeps the store intact. */
  lemma InsertNoteKeepsValid(st: Store, id: Id, note: Note)
    ensures Valid(st) && UserRef(st.users, note.createdBy) && note.lead in st.leads ==>
              Valid(st.(notes := st.notes[id := note]))
  {
    if Valid(st) && UserRef(st.users, note.createdBy) && note.lead in st.leads {
      var r := st.(notes := st.notes[id := note]);
      assert NotesValid(r);
    }
  }

  /** Inserting a Correspondence whose references exist keeps the store intact. */
  lemma InsertCorrespondenceKeepsValid(st: Store, id: Id, c: Correspondence)
    ensures Valid(st) && UserRef(st.users, c.createdBy) && c.contact in st.contacts
            && (c.lead.Some? ==> c.lead.value in st.leads) ==>
              Valid(st.(correspondence := st.correspondence[id := c]))
  {
    if Valid(st) && UserRef(st.users, c.createdBy) && c.contact in st.contacts && (c.lead.Some? ==> c.lead.value in st.leads) {
      var r := st.(correspondence := st.correspondence[id := c]);
      assert CorrespondenceValid(r);
    }
  }

  /** Inserting or replacing a Reminder whose references exist keeps the store intact. */
  lemma InsertReminderKeepsValid(st: Store, id: Id, reminder: Reminder)
    ensures Valid(st) && reminder.createdBy in st.users && reminder.lead in st.leads ==>
              Valid(st.(reminders := st.reminders[id := reminder]))
  {
    if Valid(st) && reminder.createdBy in st.users && reminder.lead in st.leads {
      var r := st.(reminders := st.reminders[id := reminder]);
      assert RemindersValid(r);
    }
  }
}

=== FILE: ordering.dfy ===
/**
 * The default orderings of the listings. A listing is a sequence of ids in
 * non-decreasing order of a key; a descending ordering on a column uses the
 * negated column as its key.
 */
module Ordering {

  /** `ids` is in non-decreasing order of `key`. */
  ghost predicate SortedBy(ids: seq<nat>, key: nat -> int) {
    forall i, j | 0 <= i < j < |ids| :: key(ids[i]) <= key(ids[j])
  }

  /** Places `id` after every element with a smaller key. */
  function Insert(ids: seq<nat>, id: nat, key: nat -> int): (r: seq<nat>)
    requires SortedBy(ids, key)
    ensures SortedBy(r, key)
    ensures multiset(r) == multiset(ids) + multiset{id}
  {
    if |ids| == 0 then [id]
    else if key(id) <= key(ids[0]) then
      SortedCons(id, ids, key);
      [id] + ids
    else
      SortedTail(ids, key);
      var rest := Insert(ids[1..], id, key);
      HeadBeforeInserted(ids, id, rest, key);
      [ids[0]] + rest
  }

  /** Dropping the head of a sorted sequence keeps it sorted. */
  lemma SortedTail(ids: seq<nat>, key: nat -> int)
    requires |ids| > 0 && SortedBy(ids, key)
    ensures SortedBy(ids[1..], key)
  {
    var t := ids[1..];
    forall i, j | 0 <= i < j < |t| ensures key(t[i]) <= key(t[j]) {
      assert t[i] == ids[i + 1] && t[j] == ids[j + 1];
    }
  }

  /** The head of a sorted sequence, smaller than `id`, goes before the insertion of `id` into the tail. */
  lemma HeadBeforeInserted(ids: seq<nat>, id: nat, rest: seq<nat>, key: nat -> int)
    requires |ids| > 0 && SortedBy(ids, key) && key(ids[0]) < key(id)
    requires SortedBy(rest, key) && multiset(rest) == multiset(ids[1..]) + multiset{id}
    ensures SortedBy([ids[0]] + rest, key)
    ensures multiset([ids[0]] + rest) == multiset(ids) + multiset{id}
  {
    var src := ids[1..] + [id];
    forall k | 0 <= k < |src| ensures key(ids[0]) <= key(src[k]) {
      if k < |ids| - 1 {
        assert src[k] == ids[k + 1];
      }
    }
    BoundedByMembers(ids[0], src, rest, key);
    SortedCons(ids[0], rest, key);
    assert ids == [ids[0]] + ids[1..];
  }

  /** Prepending an element no larger than the rest keeps a sequence sorted. */
  lemma SortedCons(x: nat, ids: seq<nat>, key: nat -> int)
    requires SortedBy(ids, key)
    requires forall k | 0 <= k < |ids| :: key(x) <= key(ids[k])
    ensures SortedBy([x] + ids, key)
  {
    var s := [x] + ids;
    forall i, j | 0 <= i < j < |s| ensures key(s[i]) <= key(s[j]) {
      if i > 0 {
        assert s[i] == ids[i - 1] && s[j] == ids[j - 1];
      } else {
        assert s[j] == ids[j - 1];
      }
    }
  }

  /** A lower bound of every element of `src` bounds every element of a permutation of `src`. */
  lemma BoundedByMembers(x: nat, src: seq<nat>, perm: seq<nat>, key: nat -> int)
    requires forall k | 0 <= k < |src| :: key(x) <= key(src[k])
    requires multiset(perm) == multiset(src)
    ensures forall k | 0 <= k < |perm| :: key(x) <= key(perm[k])
  {
    forall k | 0 <= k < |perm| ensures key(x) <= key(perm[k]) {
      assert perm[k] in multiset(perm);
      assert perm[k] in src;
    }
  }

  /** Orders a set of ids by `key`; every id appears exactly once. */
  method OrderIds(ids: set<nat>, key: nat -> int) returns (out: seq<nat>)
    ensures SortedBy(out, key)
    ensures multiset(out) == multiset(ids)
  {
    out := [];
    var rest := ids;
    while rest != {}
      invariant rest <= ids
      invariant SortedBy(out, key)
      invariant multiset(out) == multiset(ids - rest)
      decreases rest
    {
      var id :| id in rest;
      out := Insert(out, id, key);
      assert ids - (rest - {id}) == (ids - rest) + {id};
      rest := rest - {id};
    }
    assert ids - rest == ids;
  }

  /** A sequence with the multiset of a set holds exactly that set's elements, each once. */
  lemma ListsExactly(out: seq<nat>, ids: set<nat>)
    requires multiset(out) == multiset(ids)
    ensures forall x :: x in out <==> x in ids
    ensures |out| == |ids|
  {
    assert forall x :: x in out <==> x in multiset(out);
    assert |multiset(out)| == |out|;
  }
}

=== FILE: ownership.dfy ===
/**
 * The ownership attributes an object exposes to the object-level permission
 * checks. The checks probe `created_by` and `assigned_to` by attribute
 * presence, so each is either absent from the object's kind or present with
 * a nullable user reference.
 */
module Ownership {
  import opened Wrappers
  import opened Accounts

  datatype Attr = Absent | Present(ref: Option<UserId>)

  datatype Owned = Owned(createdBy: Attr, assignedTo: Attr)

  /** The attribute is present and refers to `user`; a null reference matches nobody. */
  predicate RefersTo(attr: Attr, user: User) {
    attr == Present(Some(user.id))
  }
}

=== FILE: serializers.dfy ===
/**
 * The request serializers: which fields each declares, which of them are
 * read-only, and how the writable ones are validated against the store.
 * Validation yields the validated data (the writable part of the payload)
 * or the set of fields in error.
 */
module Serializers {
  import opened Wrappers
  import opened Accounts
  import opened Models

  /** A decoded payload value. */
  datatype Value =
    | Null
    | Text(text: string)
    | Key(key: nat)
    | Keys(keys: set<nat>)
    | Flag(flag: bool)
    | Instant(at: Timestamp)

  /** A request body: field name to value. */
  type Payload = map<string, Value>

  datatype Serializer = NoteSerializer | CorrespondenceSerializer | ReminderSerializer | ContactSerializer | LeadSerializer

  /** The fields each serializer lists in its `Meta.fields`. */
  function DeclaredFields(s: Serializer): set<string> {
    match s
    case NoteSerializer =>
      {"id", "lead", "content", "created_by", "created_at", "updated_at"}
    case CorrespondenceSerializer =>
      {"id", "contact", "lead", "type", "subject", "content", "date", "created_by", "created_at", "updated_at"}
    case ReminderSerializer =>
      {"id", "lead", "title", "description", "due_date", "priority", "is_completed",
       "created_by", "created_at", "updated_at"}
    case ContactSerializer =>
      {"id", "first_name", "last_name", "email", "phone", "company", "job_title", "leads", "address",
       "city", "state", "country", "notes", "created_by", "created_at", "updated_at"}
    case LeadSerializer =>
      {"id", "first_name", "last_name", "company", "job_title", "email", "phone", "status", "priority",
       "source", "assigned_to", "assigned_to_id", "value", "address", "city", "state", "country",
       "postal_code", "description", "contacts", "notes", "reminders", "correspondence",
       "created_by", "created_at", "updated_at", "last_contacted"}
  }

  /**
   * The fields a payload cannot set: `Meta.read_only_fields`, the fields
   * declared with a read-only nested serializer, and the non-editable key.
   */
  function ReadOnlyFields(s: Serializer): set<string> {
    var common := {"id", "created_by", "created_at", "updated_at"};
    match s
    case LeadSerializer =>
      common + {"last_contacted", "assigned_to", "contacts", "notes", "reminders", "correspondence"}
    case _ => common
  }

  function WritableFields(s: Serializer): set<string> {
    DeclaredFields(s) - ReadOnlyFields(s)
  }

  /** The part of a payload a serializer reads: its writable fields, unchanged; all else is ignored. */
  function Input(s: Serializer, p: Payload): (data: Payload)
    ensures data.Keys == p.Keys * WritableFields(s)
    ensures forall f | f in data :: data[f] == p[f]
    ensures forall f | f in ReadOnlyFields(s) :: f !in data
  {
    map f | f in p && f in WritableFields(s) :: p[f]
  }

  /** No serializer lets a payload set the creator or the timestamps, and a Lead's `last_contacted` is read-only. */
  lemma StampsAreReadOnly(s: Serializer, p: Payload)
    ensures "created_by" !in Input(s, p)
    ensures "created_at" !in Input(s, p) && "updated_at" !in Input(s, p)
    ensures s == LeadSerializer ==> "last_contacted" !in Input(s, p) && "assigned_to" !in Input(s, p)
  {
  }

  // ------------------------------------------------------------- validation

  datatype Shape =
    | Chars(allowBlank: bool, choices: Option<set<string>>)
    | ForeignKey(targets: set<nat>)
    | ForeignKeys(targets: set<nat>)
    | Boolean
    | DateTime

  /** What the serializer field derived from a model field demands. */
  datatype FieldSpec = FieldSpec(required: bool, allowNull: bool, shape: Shape)

  predicate Accepts(shape: Shape, v: Value) {
    match shape
    case Chars(allowBlank, choices) =>
      v.Text? && (allowBlank || v.text != "") && (choices.Some? ==> v.text in choices.value)
    case ForeignKey(targets) => v.Key? && v.key in targets
    case ForeignKeys(targets) => v.Keys? && v.keys <= targets
    case Boolean => v.Flag?
    case DateTime => v.Instant?
  }

  /** A field is in order when omitted and optional, null and nullable, or accepted by its shape. */
  predicate FieldOk(spec: FieldSpec, p: Payload, f: string) {
    if f in p then (if p[f] == Null then spec.allowNull else Accepts(spec.shape, p[f]))
    else !spec.required
  }

  /** Required: true when the model field has neither a default nor blank=True. */
  function Req(shape: Shape): FieldSpec { FieldSpec(true, false, shape) }
  function Opt(shape: Shape): FieldSpec { FieldSpec(false, false, shape) }
  function OptNull(shape: Shape): FieldSpec { FieldSpec(false, true, shape) }

  const NonBlank: Shape := Chars(false, None)
  const AnyText: Shape := Chars(true, None)

  /** The users an assignment may name: those whose stored role text is "agent". */
  function AgentIds(users: Directory): (ids: set<UserId>)
    ensures forall u :: u in ids <==> u in users && IsAgent(users[u])
  {
    set u | u in users && RoleValue(users[u].role) == "agent"
  }

  /** The validated fields of each serializer, against the rows of `st`: never a read-only one. */
  function Specs(s: Serializer, st: Store): (specs: map<string, FieldSpec>)
    ensures specs.Keys <= WritableFields(s)
  {
    match s
    case NoteSerializer => NoteSpecs(st)
    case CorrespondenceSerializer => CorrespondenceSpecs(st)
    case ReminderSerializer => ReminderSpecs(st)
    case ContactSerializer => ContactSpecs(st)
    case LeadSerializer => LeadSpecs(st)
  }

  function NoteSpecs(st: Store): (specs: map<string, FieldSpec>)
    ensures specs.Keys <= WritableFields(NoteSerializer)
  {
    map["lead" := Req(ForeignKey(st.leads.Keys)), "content" := Req(NonBlank)]
  }

  function CorrespondenceSpecs(st: Store): (specs: map<string, FieldSpec>)
    ensures specs.Keys <= WritableFields(CorrespondenceSerializer)
  {
    map["contact" := Req(ForeignKey(st.contacts.Keys)),
        "lead" := OptNull(ForeignKey(st.leads.Keys)),
        "type" := Req(Chars(false, Some(CorrespondenceTypeChoices))),
        "subject" := Opt(AnyText),
        "content" := Req(NonBlank),
        "date" := Opt(DateTime)]
  }

  function ReminderSpecs(st: Store): (specs: map<string, FieldSpec>)
    ensures specs.Keys <= WritableFields(ReminderSerializer)
  {
    map["lead" := Req(ForeignKey(st.leads.Keys)),
        "title" := Req(NonBlank),
        "description" := Opt(AnyText),
        "due_date" := Req(DateTime),
        "priority" := Opt(Chars(false, Some(ReminderPriorityChoices))),
        "is_completed" := Opt(Boolean)]
  }

  function ContactSpecs(st: Store): (specs: map<string, FieldSpec>)
    ensures specs.Keys <= WritableFields(ContactSerializer)
  {
    map["first_name" := Req(NonBlank),
        "last_name" := Req(NonBlank),
        "email" := Req(NonBlank),
        "leads" := Opt(ForeignKeys(st.leads.Keys))]
  }

  function LeadSpecs(st: Store): (specs: map<string, FieldSpec>)
    ensures specs.Keys <= WritableFields(LeadSerializer)
  {
    map["first_name" := Req(NonBlank),
        "last_name" := Req(NonBlank),
        "email" := Req(NonBlank),
        "status" := Opt(Chars(false, Some(StatusChoices))),
        "priority" := Opt(Chars(false, Some(LeadPriorityChoices))),
        "assigned_to_id" := OptNull(ForeignKey(AgentIds(st.users)))]
  }

  /** `is_valid()`: the validated data, or the fields in error. */
  function Validate(s: Serializer, st: Store, p: Payload): (r: Result<Payload, set<string>>)
    ensures r.Ok? <==> forall f | f in Specs(s, st) :: FieldOk(Specs(s, st)[f], p, f)
    ensures r.Ok? ==> r.value == Input(s, p)
    ensures r.Err? ==> r.error != {} && r.error <= Specs(s, st).Keys
  {
    var specs := Specs(s, st);
    var errors := set f | f in specs && !FieldOk(specs[f], p, f);
    if errors == {} then
      assert forall f | f in specs :: f !in errors;
      Ok(Input(s, p))
    else
      WitnessOfNonEmpty(errors);
      Err(errors)
  }

  lemma WitnessOfNonEmpty(s: set<string>)
    requires s != {}
    ensures exists x :: x in s
  {
    var x :| x in s;
  }

  // ------------------------------------------------- reading validated data

  // The rows a valid payload's foreign keys name exist, because each key
  // field's queryset is the table itself (agents only, for `assigned_to_id`).

  lemma ValidLeadPayload(st: Store, p: Payload)
    requires Validate(LeadSerializer, st, p).Ok?
    ensures UserRef(st.users, OptionalKey(Input(LeadSerializer, p), "assigned_to_id"))
  {
    assert "assigned_to_id" in Specs(LeadSerializer, st);
  }

  lemma ValidContactPayload(st: Store, p: Payload)
    requires Validate(ContactSerializer, st, p).Ok?
    ensures KeysOr(Input(ContactSerializer, p), "leads", {}) <= st.leads.Keys
  {
    assert "leads" in Specs(ContactSerializer, st);
  }

  lemma ValidNotePayload(st: Store, p: Payload)
    requires Validate(NoteSerializer, st, p).Ok?
    ensures KeyOr(Input(NoteSerializer, p), "lead", 0) in st.leads
  {
    assert "lead" in Specs(NoteSerializer, st);
  }

  lemma ValidCorrespondencePayload(st: Store, p: Payload)
    requires Validate(CorrespondenceSerializer, st, p).Ok?
    ensures KeyOr(Input(CorrespondenceSerializer, p), "contact", 0) in st.contacts
    ensures OptionalKey(Input(CorrespondenceSerializer, p), "lead").Some? ==>
              OptionalKey(Input(CorrespondenceSerializer, p), "lead").value in st.leads
  {
    assert "contact" in Specs(CorrespondenceSerializer, st) && "lead" in Specs(CorrespondenceSerializer, st);
  }

  lemma ValidReminderPayload(st: Store, p: Payload)
    requires Validate(ReminderSerializer, st, p).Ok?
    ensures KeyOr(Input(ReminderSerializer, p), "lead", 0) in st.leads
  {
    assert "lead" in Specs(ReminderSerializer, st);
  }

  function TextOr(data: Payload, f: string, default: string): string {
    if f in data && data[f].Text? then data[f].text else default
  }

  function KeyOr(data: Payload, f: string, default: nat): nat {
    if f in data && data[f].Key? then data[f].key else default
  }

  function OptionalKey(data: Payload, f: string): Option<nat> {
    if f in data && data[f].Key? then Some(data[f].key) else None
  }

  function KeysOr(data: Payload, f: string, default: set<nat>): set<nat> {
    if f in data && data[f].Keys? then data[f].keys else default
  }

  function FlagOr(data: Payload, f: string, default: bool): bool {
    if f in data && data[f].Flag? then data[f].flag else default
  }

  function InstantOr(data: Payload, f: string, default: Timestamp): Timestamp {
    if f in data && data[f].Instant? then data[f].at else default
  }

  // -------------------------------------------------- save(): row from data
  // The keyword arguments of `save()` (creator, parent row) override the
  // validated data; omitted optional fields take the model defaults.

  function NewLead(data: Payload, createdBy: Option<UserId>, now: Timestamp): (lead: Lead)
    ensures lead.createdBy == createdBy && lead.createdAt == now && lead.updatedAt == now
    ensures lead.lastContacted == None
    ensures "status" !in data ==> lead.status == DefaultLeadStatus
    ensures "priority" !in data ==> lead.priority == DefaultLeadPriority
    ensures "status" in data && data["status"].Text? && data["status"].text in StatusChoices ==>
              StatusValue(lead.status) == data["status"].text
    ensures "priority" in data && data["priority"].Text? && data["priority"].text in LeadPriorityChoices ==>
              LeadPriorityValue(lead.priority) == data["priority"].text
    ensures lead.assignedTo == OptionalKey(data, "assigned_to_id")
  {
    Lead(
      TextOr(data, "first_name", ""),
      TextOr(data, "last_name", ""),
      TextOr(data, "email", ""),
      ParseStatus(TextOr(data, "status", "")).GetOr(DefaultLeadStatus),
      ParseLeadPriority(TextOr(data, "priority", "")).GetOr(DefaultLeadPriority),
      OptionalKey(data, "assigned_to_id"),
      createdBy, now, now, None)
  }

  function NewContact(data: Payload, createdBy: Option<UserId>, now: Timestamp): (contact: Contact)
    ensures contact.createdBy == createdBy && contact.createdAt == now
    ensures contact.leads == KeysOr(data, "leads", {})
  {
    Contact(
      TextOr(data, "first_name", ""),
      TextOr(data, "last_name", ""),
      TextOr(data, "email", ""),
      KeysOr(data, "leads", {}),
      createdBy, now, now)
  }

  function NewNote(data: Payload, lead: Id, createdBy: Option<UserId>, now: Timestamp): (note: Note)
    ensures note.lead == lead && note.createdBy == createdBy && note.createdAt == now
  {
    Note(lead, TextOr(data, "content", ""), createdBy, now, now)
  }

  function NewCorrespondence(data: Payload, contact: Id, createdBy: Option<UserId>, now: Timestamp): (c: Correspondence)
    ensures c.contact == contact && c.createdBy == createdBy && c.createdAt == now
    ensures c.lead == OptionalKey(data, "lead")
    ensures "date" !in data ==> c.date == now
  {
    Correspondence(
      contact,
      OptionalKey(data, "lead"),
      ParseCorrespondenceType(TextOr(data, "type", "")).GetOr(Email),
      TextOr(data, "subject", ""),
      TextOr(data, "content", ""),
      InstantOr(data, "date", now),
      createdBy, now, now)
  }

  function NewReminder(data: Payload, lead: Id, createdBy: UserId, now: Timestamp): (reminder: Reminder)
    ensures reminder.lead == lead && reminder.createdBy == createdBy && reminder.createdAt == now
    ensures "is_completed" !in data ==> !reminder.isCompleted
    ensures "priority" !in data ==> reminder.priority == DefaultReminderPriority
    ensures "due_date" in data && data["due_date"].Instant? ==> reminder.dueDate == data["due_date"].at
  {
    Reminder(
      lead,
      TextOr(data, "title", ""),
      TextOr(data, "description", ""),
      InstantOr(data, "due_date", now),
      ParseReminderPriority(TextOr(data, "priority", "")).GetOr(DefaultReminderPriority),
      FlagOr(data, "is_completed", false),
      createdBy, now, now)
  }

  /** A Lead payload naming an assignee is valid only when that user is an agent; omitting it or sending null is valid. */
  lemma AssigneeMustBeAgent(st: Store, p: Payload)
    requires Validate(LeadSerializer, st, p).Ok?
    ensures "assigned_to_id" in p && p["assigned_to_id"] != Null ==>
              p["assigned_to_id"].Key? && p["assigned_to_id"].key in st.users
              && IsAgent(st.users[p["assigned_to_id"].key])
  {
    var specs := Specs(LeadSerializer, st);
    assert "assigned_to_id" in specs;
  }

  /** A valid Lead payload stays valid with its assignee set to null or left out. */
  lemma AssigneeMayBeNullOrOmitted(st: Store, p: Payload)
    requires Validate(LeadSerializer, st, p).Ok?
    ensures Validate(LeadSerializer, st, p["assigned_to_id" := Null]).Ok?
    ensures Validate(LeadSerializer, st, p - {"assigned_to_id"}).Ok?
  {
    var specs := Specs(LeadSerializer, st);
    var nulled := p["assigned_to_id" := Null];
    var omitted := p - {"assigned_to_id"};
    forall f | f in specs
      ensures FieldOk(specs[f], nulled, f) && FieldOk(specs[f], omitted, f)
    {
      if f == "assigned_to_id" {
        assert specs[f] == OptNull(ForeignKey(AgentIds(st.users)));
      } else {
        assert FieldOk(specs[f], p, f);
      }
    }
  }
}

=== FILE: tasks.dfy ===
/**
 * The reminder background tasks: the daily sweep that selects tomorrow's
 * incomplete reminders and enqueues one dispatch per reminder, and the
 * dispatch that mails one reminder to its creator.
 */
module Tasks {
  import opened Accounts
  import opened Models
  import opened Ordering
  import Views

  /** `timedelta(days=1)` in seconds. */
  const SecondsPerDay: int := 86400

  /** The calendar day (days since the epoch, UTC) of a timestamp. */
  function DayOf(t: Timestamp): (day: int)
    ensures day * SecondsPerDay <= t < (day + 1) * SecondsPerDay
  {
    t / SecondsPerDay
  }

  /** A timestamp lies in exactly one calendar day. */
  lemma DayOfUnique(t: Timestamp, day: int)
    requires day * SecondsPerDay <= t < (day + 1) * SecondsPerDay
    ensures DayOf(t) == day
  {
  }

  /** The date of now + 1 day is the day after today, whatever the time of day. */
  lemma TomorrowIsNextDay(now: Timestamp)
    ensures DayOf(now + SecondsPerDay) == DayOf(now) + 1
  {
    DayOfUnique(now + SecondsPerDay, DayOf(now) + 1);
  }

  // ---------------------------------------------------------------- dispatch

  /** The mail `send_reminder_email` hands to the mail transport. */
  datatype MailRequest = MailRequest(
    recipients: seq<string>,
    subject: string,
    leadName: string,
    title: string,
    description: string,
    priority: ReminderPriority,
    due: Timestamp)

  datatype DispatchResult =
    | Sent(mail: MailRequest)
      /** The "not found or already completed" return. */
    | NotFoundOrCompleted(id: Id)
      /** The transport raised; `fail_silently=False` lets the error leave the task. */
    | MailFailed(mail: MailRequest)
      /** The reminder's lead or creator row is missing; the lookup error leaves the task. */
    | BrokenReference

  /**
   * `send_reminder_email`: a missing or completed reminder is a no-op;
   * otherwise one mail addressed only to the creator's email is handed to the
   * transport, whose success is `delivered`. The store is only read.
   */
  function SendReminderEmail(st: Store, id: Id, delivered: bool): (r: DispatchResult)
    ensures r == NotFoundOrCompleted(id) <==> id !in st.reminders || st.reminders[id].isCompleted
    ensures r.Sent? || r.MailFailed? ==>
              && id in st.reminders && !st.reminders[id].isCompleted
              && st.reminders[id].createdBy in st.users
              && r.mail.recipients == [st.users[st.reminders[id].createdBy].email]
              && r.mail.subject == "Reminder: " + st.reminders[id].title
    ensures r.Sent? ==> delivered
    ensures r.MailFailed? ==> !delivered
    ensures Valid(st) ==> !r.BrokenReference?
  {
    if id !in st.reminders || st.reminders[id].isCompleted then NotFoundOrCompleted(id)
    else
      var reminder := st.reminders[id];
      if reminder.lead !in st.leads || reminder.createdBy !in st.users then BrokenReference
      else
        var mail := MailRequest(
          [st.users[reminder.createdBy].email],
          "Reminder: " + reminder.title,
          LeadName(st.leads[reminder.lead]),
          reminder.title,
          reminder.description,
          reminder.priority,
          reminder.dueDate);
        if delivered then Sent(mail) else MailFailed(mail)
  }

  /** In an intact store, dispatching an incomplete reminder always issues exactly one mail. */
  lemma PendingReminderMailedOnce(st: Store, id: Id, delivered: bool)
    requires Valid(st) && id in st.reminders && !st.reminders[id].isCompleted
    ensures SendReminderEmail(st, id, delivered).Sent? || SendReminderEmail(st, id, delivered).MailFailed?
    ensures SendReminderEmail(st, id, delivered).Sent? <==> delivered
  {
  }

  /** Once completed, a reminder is never mailed again, however often it is dispatched. */
  lemma CompletedReminderNeverMailed(st: Store, id: Id, delivered: bool, now: Timestamp)
    requires id in st.reminders
    ensures SendReminderEmail(st.(reminders := st.reminders[id := st.reminders[id].(isCompleted := true, updatedAt := now)]), id, delivered)
         == NotFoundOrCompleted(id)
  {
  }

  /** The mails of the dispatches that were sent, in dispatch order. */
  function SentMails(results: seq<DispatchResult>): seq<MailRequest> {
    if |results| == 0 then []
    else
      var last := results[|results| - 1];
      SentMails(results[..|results| - 1]) + (if last.Sent? then [last.mail] else [])
  }

  /** Every mail in the sent list comes from a dispatch that was sent. */
  lemma {:induction false} SentMailsAreSent(results: seq<DispatchResult>)
    ensures forall m | m in SentMails(results) :: exists i | 0 <= i < |results| :: results[i] == Sent(m)
  {
    if |results| > 0 {
      var init := results[..|results| - 1];
      SentMailsAreSent(init);
      forall m | m in SentMails(results)
        ensures exists i | 0 <= i < |results| :: results[i] == Sent(m)
      {
        if m in SentMails(init) {
          var i :| 0 <= i < |init| && init[i] == Sent(m);
          assert results[i] == Sent(m);
        } else {
          assert results[|results| - 1] == Sent(m);
        }
      }
    }
  }

  /** No sent mail is missing from the sent list, whatever failed around it. */
  lemma {:induction false} SentMailsKeepEverySent(results: seq<DispatchResult>)
    ensures forall i | 0 <= i < |results| && results[i].Sent? :: results[i].mail in SentMails(results)
  {
    if |results| > 0 {
      var init := results[..|results| - 1];
      SentMailsKeepEverySent(init);
      forall i | 0 <= i < |results| && results[i].Sent?
        ensures results[i].mail in SentMails(results)
      {
        if i < |init| {
          assert init[i] == results[i];
        }
      }
    }
  }

  /** When every dispatch was sent, the sent list is the mails in dispatch order. */
  lemma {:induction false} AllSentMailsInOrder(results: seq<DispatchResult>)
    requires forall i | 0 <= i < |results| :: results[i].Sent?
    ensures |SentMails(results)| == |results|
    ensures forall i | 0 <= i < |results| :: SentMails(results)[i] == results[i].mail
  {
    if |results| > 0 {
      var init := results[..|results| - 1];
      AllSentMailsInOrder(init);
    }
  }

  /**
   * A worker draining the queue: each enqueued id is dispatched against the
   * same store, since a dispatch writes nothing; `delivered` says whether the
   * transport accepted each mail. The outbox holds the mails sent, in queue order.
   */
  method DrainQueue(st: Store, queue: seq<Id>, delivered: Id -> bool) returns (results: seq<DispatchResult>, outbox: seq<MailRequest>)
    ensures |results| == |queue|
    ensures forall i | 0 <= i < |queue| :: results[i] == SendReminderEmail(st, queue[i], delivered(queue[i]))
    ensures outbox == SentMails(results)
    ensures forall m | m in outbox :: exists i | 0 <= i < |queue| :: results[i] == Sent(m)
    ensures forall i | 0 <= i < |queue| && results[i].Sent? :: results[i].mail in outbox
    ensures (forall i | 0 <= i < |queue| :: results[i].Sent?) ==>
              |outbox| == |queue| && forall i | 0 <= i < |queue| :: outbox[i] == results[i].mail
  {
    results := [];
    outbox := [];
    var i := 0;
    while i < |queue|
      invariant 0 <= i <= |queue|
      invariant |results| == i
      invariant forall k | 0 <= k < i :: results[k] == SendReminderEmail(st, queue[k], delivered(queue[k]))
      invariant outbox == SentMails(results)
    {
      var r := SendReminderEmail(st, queue[i], delivered(queue[i]));
      assert (results + [r])[..i] == results;
      results := results + [r];
      if r.Sent? {
        outbox := outbox + [r.mail];
      }
      i := i + 1;
    }
    SentMailsAreSent(results);
    SentMailsKeepEverySent(results);
    if forall k | 0 <= k < |results| :: results[k].Sent? {
      AllSentMailsInOrder(results);
    }
  }

  // ------------------------------------------------------------- daily sweep

  /** Incomplete reminders due on the calendar day of now + 1 day, which is the day after today. */
  function DueTomorrow(st: Store, now: Timestamp): (ids: set<Id>)
    ensures ids <= st.reminders.Keys
    ensures forall id | id in st.reminders ::
              id in ids <==> !st.reminders[id].isCompleted && DayOf(st.reminders[id].dueDate) == DayOf(now) + 1
  {
    TomorrowIsNextDay(now);
    set id | id in st.reminders && !st.reminders[id].isCompleted
                && DayOf(st.reminders[id].dueDate) == DayOf(now + SecondsPerDay)
  }

  /**
   * The sweep covers the whole next calendar day: an incomplete reminder is
   * selected iff it falls due between the next midnight and the one after.
   */
  lemma SweepWindowIsNextCalendarDay(st: Store, now: Timestamp, id: Id)
    requires id in st.reminders && !st.reminders[id].isCompleted
    ensures id in DueTomorrow(st, now) <==>
              (DayOf(now) + 1) * SecondsPerDay <= st.reminders[id].dueDate < (DayOf(now) + 2) * SecondsPerDay
  {
    TomorrowIsNextDay(now);
    var due := st.reminders[id].dueDate;
    if (DayOf(now) + 1) * SecondsPerDay <= due < (DayOf(now) + 2) * SecondsPerDay {
      DayOfUnique(due, DayOf(now) + 1);
    }
  }

  /**
   * `send_daily_reminders`: the selected reminders, in the default (due date)
   * order, each enqueued once; the reported count is the number selected.
   * Each enqueued dispatch, run on the same store, mails its reminder.
   */
  method SendDailyReminders(st: Store, now: Timestamp) returns (enqueued: seq<Id>, count: nat)
    ensures multiset(enqueued) == multiset(DueTomorrow(st, now))
    ensures SortedBy(enqueued, Views.ListingKey(st, Views.ReminderKind))
    ensures count == |enqueued| == |DueTomorrow(st, now)|
    ensures Valid(st) ==> forall i | 0 <= i < |enqueued| :: SendReminderEmail(st, enqueued[i], true).Sent?
  {
    enqueued := OrderIds(DueTomorrow(st, now), Views.ListingKey(st, Views.ReminderKind));
    ListsExactly(enqueued, DueTomorrow(st, now));
    count := |enqueued|;
    if Valid(st) {
      forall i | 0 <= i < |enqueued|
        ensures SendReminderEmail(st, enqueued[i], true).Sent?
      {
        assert enqueued[i] in DueTomorrow(st, now);
        PendingReminderMailedOnce(st, enqueued[i], true);
      }
    }
  }
}

=== FILE: views.dfy ===
/**
 * The five viewsets of the leads app, as the REST framework runs them:
 * `check_permissions` over the viewset's permission classes, then for detail
 * routes `get_object` (a lookup inside `get_queryset`, then
 * `check_object_permissions`), then the handler. Each handler returns the
 * response and the store after the request.
 */
module Views {
  import opened Wrappers
  import opened Accounts
  import opened Ownership
  import opened Models
  import opened Serializers
  import opened Ordering
  import LeadPermissions

  datatype Kind = LeadKind | ContactKind | NoteKind | CorrespondenceKind | ReminderKind

  datatype Response =
    | Listed
    | Retrieved
    | Created(id: Id)
    | Deleted
    | Completed
    | BadRequest(errors: set<string>)
    | NotFound
    | Forbidden
    | NotAuthenticated
    | IntegrityError

  datatype Outcome = Outcome(response: Response, store: Store)

  // ------------------------------------------------------ permission classes

  datatype PermissionClass = IsAuthenticated | IsManagerOrReadOnly | IsOwnerOrManager

  /** The `permission_classes` list of each viewset. */
  function PermissionClasses(kind: Kind): seq<PermissionClass> {
    match kind
    case LeadKind => [IsAuthenticated, IsManagerOrReadOnly, IsOwnerOrManager]
    case ContactKind => [IsAuthenticated, IsManagerOrReadOnly, IsOwnerOrManager]
    case _ => [IsAuthenticated, IsOwnerOrManager]
  }

  /**
   * `has_permission` of one class. The owner check keeps the framework's
   * default (grant). IsAuthenticated heads every list, so the manager check
   * is never asked about an anonymous requester; it refuses one here.
   */
  predicate HasPermission(c: PermissionClass, req: Requester, verb: string) {
    match c
    case IsAuthenticated => req.Authenticated?
    case IsManagerOrReadOnly => req.Authenticated? && LeadPermissions.IsManagerOrReadOnlyGrants(req.user, verb)
    case IsOwnerOrManager => true
  }

  /** `has_object_permission` of one class; the first two keep the framework's default (grant). */
  predicate HasObjectPermission(c: PermissionClass, user: User, obj: Owned) {
    match c
    case IsOwnerOrManager => LeadPermissions.IsOwnerOrManagerGrants(user, obj)
    case _ => true
  }

  /** `check_permissions`: the classes in order; the first refusal answers the request. */
  function CheckPermissions(classes: seq<PermissionClass>, req: Requester, verb: string): (denial: Option<Response>)
    ensures denial.None? <==> forall i | 0 <= i < |classes| :: HasPermission(classes[i], req, verb)
    ensures denial.Some? ==> denial.value == (if req.Anonymous? then NotAuthenticated else Forbidden)
  {
    if |classes| == 0 then None
    else if !HasPermission(classes[0], req, verb) then Some(if req.Anonymous? then NotAuthenticated else Forbidden)
    else
      var tail := CheckPermissions(classes[1..], req, verb);
      assert forall i | 1 <= i < |classes| :: classes[i] == classes[1..][i - 1];
      tail
  }

  /** `check_object_permissions`: every class must grant. */
  function CheckObjectPermissions(classes: seq<PermissionClass>, user: User, obj: Owned): (granted: bool)
    ensures granted <==> forall i | 0 <= i < |classes| :: HasObjectPermission(classes[i], user, obj)
  {
    if |classes| == 0 then true
    else
      var tail := CheckObjectPermissions(classes[1..], user, obj);
      assert forall i | 1 <= i < |classes| :: classes[i] == classes[1..][i - 1];
      HasObjectPermission(classes[0], user, obj) && tail
  }

  /**
   * The collection-level gate of every viewset: an authenticated requester
   * passes, except that DELETE on a Lead or a Contact needs a manager.
   * Note, Correspondence and Reminder deletes pass for any authenticated user.
   */
  lemma CollectionGate(kind: Kind, req: Requester, verb: string)
    ensures CheckPermissions(PermissionClasses(kind), req, verb).None? <==>
              req.Authenticated? && (verb == "DELETE" && kind in {LeadKind, ContactKind} ==> IsManager(req.user))
  {
    var classes := PermissionClasses(kind);
    if req.Authenticated? {
      LeadPermissions.OnlyDeleteIsGated(req.user, verb);
    }
    assert classes[0] == IsAuthenticated;
  }

  /** The object-level gate of every viewset is the owner-or-manager check alone. */
  lemma ObjectGate(kind: Kind, user: User, obj: Owned)
    ensures CheckObjectPermissions(PermissionClasses(kind), user, obj) == LeadPermissions.IsOwnerOrManagerGrants(user, obj)
  {
    var classes := PermissionClasses(kind);
    assert classes[|classes| - 1] == IsOwnerOrManager;
  }

  // ------------------------------------------------------------ get_queryset

  function LowerChar(c: char): char {
    if 'A' <= c <= 'Z' then (c as int + 32) as char else c
  }

  /** `str.lower()` on the ASCII letters. */
  function Lower(s: string): (r: string)
    ensures |r| == |s|
    ensures forall i | 0 <= i < |s| :: r[i] == LowerChar(s[i])
  {
    if |s| == 0 then "" else [LowerChar(s[0])] + Lower(s[1..])
  }

  /**
   * The `is_completed` query parameter: absent means no filter; otherwise the
   * wanted value is whether the text lowers to "true".
   */
  function CompletedFilter(param: Option<string>): (wanted: Option<bool>)
    ensures param.None? <==> wanted.None?
    ensures param.Some? ==>
              (wanted == Some(true) <==>
                 |param.value| == 4 && param.value[0] in "tT" && param.value[1] in "rR"
                 && param.value[2] in "uU" && param.value[3] in "eE")
  {
    match param
    case None => None
    case Some(text) =>
      var lowered := Lower(text);
      assert lowered == "true" <==>
        |text| == 4 && text[0] in "tT" && text[1] in "rR" && text[2] in "uU" && text[3] in "eE" by {
        if |text| == 4 && lowered != "true" {
          assert exists i | 0 <= i < 4 :: lowered[i] != "true"[i];
        }
      }
      Some(lowered == "true")
  }

  /** A manager's Leads are all Leads; anyone else's are those naming them as assignee or creator. */
  function LeadScope(st: Store, user: User): (ids: set<Id>)
    ensures ids <= st.leads.Keys
    ensures IsManager(user) ==> ids == st.leads.Keys
    ensures forall id | id in st.leads ::
              id in ids <==> IsManager(user) || st.leads[id].assignedTo == Some(user.id) || st.leads[id].createdBy == Some(user.id)
  {
    if IsManager(user) then st.leads.Keys
    else set id | id in st.leads && (st.leads[id].assignedTo == Some(user.id) || st.leads[id].createdBy == Some(user.id))
  }

  /** A manager's rows are the whole table; anyone else's are the rows they created. */
  function ContactScope(st: Store, user: User): (ids: set<Id>)
    ensures ids <= st.contacts.Keys
    ensures IsManager(user) ==> ids == st.contacts.Keys
    ensures forall id | id in st.contacts :: id in ids <==> IsManager(user) || st.contacts[id].createdBy == Some(user.id)
  {
    if IsManager(user) then st.contacts.Keys
    else set id | id in st.contacts && st.contacts[id].createdBy == Some(user.id)
  }

  function NoteScope(st: Store, user: User): (ids: set<Id>)
    ensures ids <= st.notes.Keys
    ensures IsManager(user) ==> ids == st.notes.Keys
    ensures forall id | id in st.notes :: id in ids <==> IsManager(user) || st.notes[id].createdBy == Some(user.id)
  {
    if IsManager(user) then st.notes.Keys
    else set id | id in st.notes && st.notes[id].createdBy == Some(user.id)
  }

  function CorrespondenceScope(st: Store, user: User): (ids: set<Id>)
    ensures ids <= st.correspondence.Keys
    ensures IsManager(user) ==> ids == st.correspondence.Keys
    ensures forall id | id in st.correspondence :: id in ids <==> IsManager(user) || st.correspondence[id].createdBy == Some(user.id)
  {
    if IsManager(user) then st.correspondence.Keys
    else set id | id in st.correspondence && st.correspondence[id].createdBy == Some(user.id)
  }

  /**
   * A manager's reminders, or anyone else's own, narrowed by the
   * `is_completed` parameter when it is present.
   */
  function ReminderScope(st: Store, user: User, param: Option<string>): (ids: set<Id>)
    ensures ids <= st.reminders.Keys
    ensures param.None? && IsManager(user) ==> ids == st.reminders.Keys
    ensures forall id | id in st.reminders ::
              id in ids <==>
                && (IsManager(user) || st.reminders[id].createdBy == user.id)
                && (param.Some? ==> st.reminders[id].isCompleted == (Lower(param.value) == "true"))
  {
    var own :=
      if IsManager(user) then st.reminders.Keys
      else set id | id in st.reminders && st.reminders[id].createdBy == user.id;
    match CompletedFilter(param)
    case None => own
    case Some(wanted) => set id | id in own && st.reminders[id].isCompleted == wanted
  }

  /** The rows `get_queryset` yields for `user`; `param` is the `is_completed` query parameter. */
  function Scope(st: Store, user: User, kind: Kind, param: Option<string>): set<Id> {
    match kind
    case LeadKind => LeadScope(st, user)
    case ContactKind => ContactScope(st, user)
    case NoteKind => NoteScope(st, user)
    case CorrespondenceKind => CorrespondenceScope(st, user)
    case ReminderKind => ReminderScope(st, user, param)
  }

  function TableKeys(st: Store, kind: Kind): set<Id> {
    match kind
    case LeadKind => st.leads.Keys
    case ContactKind => st.contacts.Keys
    case NoteKind => st.notes.Keys
    case CorrespondenceKind => st.correspondence.Keys
    case ReminderKind => st.reminders.Keys
  }

  /** A non-manager's rows are exactly those naming them as creator, or, for a Lead, as creator or assignee. */
  lemma ScopeOfNonManager(st: Store, user: User, kind: Kind, id: Id)
    requires !IsManager(user) && id in TableKeys(st, kind)
    ensures kind == LeadKind ==>
              (id in Scope(st, user, kind, None) <==>
                 st.leads[id].assignedTo == Some(user.id) || st.leads[id].createdBy == Some(user.id))
    ensures kind == ContactKind ==> (id in Scope(st, user, kind, None) <==> st.contacts[id].createdBy == Some(user.id))
    ensures kind == NoteKind ==> (id in Scope(st, user, kind, None) <==> st.notes[id].createdBy == Some(user.id))
    ensures kind == CorrespondenceKind ==>
              (id in Scope(st, user, kind, None) <==> st.correspondence[id].createdBy == Some(user.id))
    ensures kind == ReminderKind ==> (id in Scope(st, user, kind, None) <==> st.reminders[id].createdBy == user.id)
  {
  }

  /** A manager's rows are the whole table (with no `is_completed` parameter for reminders). */
  lemma ManagerSeesEverything(st: Store, user: User, kind: Kind)
    requires IsManager(user)
    ensures Scope(st, user, kind, None) == TableKeys(st, kind)
  {
  }

  /** With the parameter, a reminder is listed only if its completion equals whether the text lowers to "true". */
  lemma ReminderParamFilters(st: Store, user: User, text: string, id: Id)
    requires id in ReminderScope(st, user, Some(text))
    ensures st.reminders[id].isCompleted <==> Lower(text) == "true"
    ensures id in ReminderScope(st, user, None)
  {
  }

  // -------------------------------------------------------------- get_object

  /** The ownership attributes of a stored row, as the object-level check sees them. */
  function OwnershipAt(st: Store, kind: Kind, id: Id): Owned {
    match kind
    case LeadKind => if id in st.leads then LeadOwnership(st.leads[id]) else Owned(Absent, Absent)
    case ContactKind => if id in st.contacts then ContactOwnership(st.contacts[id]) else Owned(Absent, Absent)
    case NoteKind => if id in st.notes then NoteOwnership(st.notes[id]) else Owned(Absent, Absent)
    case CorrespondenceKind =>
      if id in st.correspondence then CorrespondenceOwnership(st.correspondence[id]) else Owned(Absent, Absent)
    case ReminderKind => if id in st.reminders then ReminderOwnership(st.reminders[id]) else Owned(Absent, Absent)
  }

  datatype Access = Granted | Denied(response: Response)

  /** `get_object`: not found outside the scope, forbidden if the object check refuses. */
  function GetObject(st: Store, user: User, kind: Kind, id: Id, param: Option<string>): (a: Access)
    ensures a.Granted? ==> id in Scope(st, user, kind, param) && id in TableKeys(st, kind)
    ensures a.Denied? ==> a.response in {NotFound, Forbidden}
    ensures a == Denied(NotFound) <==> id !in Scope(st, user, kind, param)
    ensures id in Scope(st, user, kind, param) ==>
              (a.Granted? <==> LeadPermissions.IsOwnerOrManagerGrants(user, OwnershipAt(st, kind, id)))
  {
    ObjectGate(kind, user, OwnershipAt(st, kind, id));
    if id !in Scope(st, user, kind, param) then Denied(NotFound)
    else if CheckObjectPermissions(PermissionClasses(kind), user, OwnershipAt(st, kind, id)) then Granted
    else Denied(Forbidden)
  }

  /**
   * For a Lead, `get_object` grants exactly the manager and the creator: the
   * `created_by` attribute is examined first, so the assignee branch is never
   * reached.
   */
  lemma LeadObjectAccess(st: Store, user: User, id: Id)
    requires id in st.leads
    ensures GetObject(st, user, LeadKind, id, None).Granted? <==>
              IsManager(user) || st.leads[id].createdBy == Some(user.id)
  {
    ObjectGate(LeadKind, user, OwnershipAt(st, LeadKind, id));
  }

  /**
   * A Lead is listed for a non-manager yet refused on lookup exactly when they
   * are its assignee and not its creator.
   */
  lemma LeadListedButRefused(st: Store, user: User, id: Id)
    requires id in st.leads
    ensures (id in LeadScope(st, user) && GetObject(st, user, LeadKind, id, None) == Denied(Forbidden)) <==>
              !IsManager(user) && st.leads[id].assignedTo == Some(user.id) && st.leads[id].createdBy != Some(user.id)
  {
    LeadObjectAccess(st, user, id);
  }

  /**
   * For the other four kinds the object check never refuses a row the
   * queryset yielded: a lookup either finds nothing or is granted.
   */
  lemma OwnerCheckRedundantOutsideLeads(st: Store, user: User, kind: Kind, id: Id, param: Option<string>)
    requires kind != LeadKind
    ensures GetObject(st, user, kind, id, param) != Denied(Forbidden)
  {
    ObjectGate(kind, user, OwnershipAt(st, kind, id));
  }

  // ---------------------------------------------------------------- handlers

  /** The requester is a row of the user table. */
  predicate Known(st: Store, req: Requester) {
    req.Authenticated? ==> req.user.id in st.users && st.users[req.user.id] == req.user
  }

  /** GET on a detail route. */
  function Retrieve(st: Store, req: Requester, kind: Kind, id: Id, param: Option<string>): (r: Response)
    ensures r == Retrieved <==>
              req.Authenticated? && GetObject(st, req.user, kind, id, param).Granted?
  {
    match CheckPermissions(PermissionClasses(kind), req, "GET")
    case Some(denial) => denial
    case None =>
      CollectionGate(kind, req, "GET");
      match GetObject(st, req.user, kind, id, param)
      case Denied(r) => r
      case Granted => Retrieved
  }

  /** GET on a list route: the scoped rows in the default order of the kind. */
  method List(st: Store, req: Requester, kind: Kind, param: Option<string>) returns (r: Response, ids: seq<Id>)
    ensures r == Listed <==> req.Authenticated?
    ensures r != Listed ==> ids == []
    ensures r == Listed ==> multiset(ids) == multiset(Scope(st, req.user, kind, param))
    ensures r == Listed ==> SortedBy(ids, ListingKey(st, kind))
  {
    CollectionGate(kind, req, "GET");
    var denial := CheckPermissions(PermissionClasses(kind), req, "GET");
    if denial.Some? {
      return denial.value, [];
    }
    ids := OrderIds(Scope(st, req.user, kind, param), ListingKey(st, kind));
    r := Listed;
  }

  /**
   * The `Meta.ordering` key: reminders by due date ascending, correspondence
   * by date descending, the rest by creation time descending.
   */
  function ListingKey(st: Store, kind: Kind): nat -> int {
    match kind
    case LeadKind => id => if id in st.leads then -st.leads[id].createdAt else 0
    case ContactKind => id => if id in st.contacts then -st.contacts[id].createdAt else 0
    case NoteKind => id => if id in st.notes then -st.notes[id].createdAt else 0
    case CorrespondenceKind => id => if id in st.correspondence then -st.correspondence[id].date else 0
    case ReminderKind => id => if id in st.reminders then st.reminders[id].dueDate else 0
  }

  /** A Lead listing is newest first and a Reminder listing soonest due first. */
  lemma ListingOrders(st: Store, ids: seq<Id>, i: nat, j: nat)
    requires i < j < |ids|
    ensures SortedBy(ids, ListingKey(st, LeadKind)) && ids[i] in st.leads && ids[j] in st.leads ==>
              st.leads[ids[i]].createdAt >= st.leads[ids[j]].createdAt
    ensures SortedBy(ids, ListingKey(st, ReminderKind)) && ids[i] in st.reminders && ids[j] in st.reminders ==>
              st.reminders[ids[i]].dueDate <= st.reminders[ids[j]].dueDate
    ensures SortedBy(ids, ListingKey(st, CorrespondenceKind)) && ids[i] in st.correspondence && ids[j] in st.correspondence ==>
              st.correspondence[ids[i]].date >= st.correspondence[ids[j]].date
  {
  }

  // ------------------------------------------------------------------- create

  /** `perform_create` of the Lead viewset: the requester is stamped as creator. */
  function CreateLead(st: Store, req: Requester, p: Payload, newId: Id, now: Timestamp): (o: Outcome)
    ensures o.response.Created? <==>
              req.Authenticated? && Validate(LeadSerializer, st, p).Ok? && newId !in st.leads
    ensures !o.response.Created? ==> o.store == st
    ensures o.response.Created? ==>
              && o.response.id == newId
              && newId in o.store.leads
              && o.store == st.(leads := st.leads[newId := o.store.leads[newId]])
              && o.store.leads[newId].createdBy == Some(req.user.id)
              && ("status" !in p ==> o.store.leads[newId].status == New)
              && ("priority" !in p ==> o.store.leads[newId].priority == LeadPriority.Medium)
    ensures Valid(st) && Known(st, req) ==> Valid(o.store)
    ensures o.response.Created? ==>
              newId in o.store.leads && o.store.leads[newId] ==
                NewLead(Input(LeadSerializer, p), Some(req.user.id), now)
  {
    match CheckPermissions(PermissionClasses(LeadKind), req, "POST")
    case Some(denial) => Outcome(denial, st)
    case None =>
      CollectionGate(LeadKind, req, "POST");
      match Validate(LeadSerializer, st, p)
      case Err(errors) => Outcome(BadRequest(errors), st)
      case Ok(data) =>
        if newId in st.leads then Outcome(IntegrityError, st)
        else
          var lead := NewLead(data, Some(req.user.id), now);
          ValidLeadPayload(st, p);
          InsertLeadKeepsValid(st, newId, lead);
          Outcome(Created(newId), st.(leads := st.leads[newId := lead]))
  }

  /** `perform_create` of the Contact viewset: the requester is stamped as creator. */
  function CreateContact(st: Store, req: Requester, p: Payload, newId: Id, now: Timestamp): (o: Outcome)
    ensures o.response.Created? <==>
              req.Authenticated? && Validate(ContactSerializer, st, p).Ok? && newId !in st.contacts
    ensures !o.response.Created? ==> o.store == st
    ensures o.response.Created? ==>
              && o.response.id == newId
              && newId in o.store.contacts
              && o.store == st.(contacts := st.contacts[newId := o.store.contacts[newId]])
              && o.store.contacts[newId].createdBy == Some(req.user.id)
    ensures Valid(st) && Known(st, req) ==> Valid(o.store)
    ensures o.response.Created? ==>
              newId in o.store.contacts && o.store.contacts[newId] ==
                NewContact(Input(ContactSerializer, p), Some(req.user.id), now)
  {
    match CheckPermissions(PermissionClasses(ContactKind), req, "POST")
    case Some(denial) => Outcome(denial, st)
    case None =>
      CollectionGate(ContactKind, req, "POST");
      match Validate(ContactSerializer, st, p)
      case Err(errors) => Outcome(BadRequest(errors), st)
      case Ok(data) =>
        if newId in st.contacts then Outcome(IntegrityError, st)
        else
          ValidContactPayload(st, p);
          var contact := NewContact(data, Some(req.user.id), now);
          InsertContactKeepsValid(st, newId, contact);
          Outcome(Created(newId), st.(contacts := st.contacts[newId := contact]))
  }

  /** `serializer.save(...)` of a Note: insert under a fresh key. */
  function SaveNote(st: Store, data: Payload, lead: Id, createdBy: Option<UserId>, newId: Id, now: Timestamp): (o: Outcome)
    ensures o.response.Created? <==> newId !in st.notes
    ensures !o.response.Created? ==> o.store == st
    ensures o.response.Created? ==>
              o.store == st.(notes := st.notes[newId := NewNote(data, lead, createdBy, now)])
    ensures Valid(st) && UserRef(st.users, createdBy) && lead in st.leads ==> Valid(o.store)
  {
    if newId in st.notes then Outcome(IntegrityError, st)
    else
      InsertNoteKeepsValid(st, newId, NewNote(data, lead, createdBy, now));
      Outcome(Created(newId), st.(notes := st.notes[newId := NewNote(data, lead, createdBy, now)]))
  }

  /** The optional lead a Correspondence payload names exists. */
  predicate LeadRefOk(st: Store, data: Payload) {
    OptionalKey(data, "lead").Some? ==> OptionalKey(data, "lead").value in st.leads
  }

  /** `serializer.save(...)` of a Correspondence: insert under a fresh key. */
  function SaveCorrespondence(st: Store, data: Payload, contact: Id, createdBy: Option<UserId>, newId: Id, now: Timestamp): (o: Outcome)
    ensures o.response.Created? <==> newId !in st.correspondence
    ensures !o.response.Created? ==> o.store == st
    ensures o.response.Created? ==>
              o.store == st.(correspondence := st.correspondence[newId := NewCorrespondence(data, contact, createdBy, now)])
    ensures Valid(st) && UserRef(st.users, createdBy) && contact in st.contacts && LeadRefOk(st, data) ==> Valid(o.store)
  {
    if newId in st.correspondence then Outcome(IntegrityError, st)
    else
      InsertCorrespondenceKeepsValid(st, newId, NewCorrespondence(data, contact, createdBy, now));
      Outcome(Created(newId), st.(correspondence := st.correspondence[newId := NewCorrespondence(data, contact, createdBy, now)]))
  }

  /** `serializer.save(...)` of a Reminder: its creator column is NOT NULL, so a missing creator is an integrity error. */
  function SaveReminder(st: Store, data: Payload, lead: Id, createdBy: Option<UserId>, newId: Id, now: Timestamp): (o: Outcome)
    ensures o.response.Created? <==> createdBy.Some? && newId !in st.reminders
    ensures !o.response.Created? ==> o.store == st
    ensures o.response.Created? ==>
              o.store == st.(reminders := st.reminders[newId := NewReminder(data, lead, createdBy.value, now)])
    ensures Valid(st) && UserRef(st.users, createdBy) && lead in st.leads ==> Valid(o.store)
  {
    if createdBy.None? || newId in st.reminders then Outcome(IntegrityError, st)
    else
      InsertReminderKeepsValid(st, newId, NewReminder(data, lead, createdBy.value, now));
      Outcome(Created(newId), st.(reminders := st.reminders[newId := NewReminder(data, lead, createdBy.value, now)]))
  }

  /** POST on the Note list route as written: the viewset has no `perform_create`, so no creator is saved. */
  function CreateNote(st: Store, req: Requester, p: Payload, newId: Id, now: Timestamp): (o: Outcome)
    ensures o.response.Created? <==>
              req.Authenticated? && Validate(NoteSerializer, st, p).Ok? && newId !in st.notes
    ensures o.response.Created? ==> newId in o.store.notes && o.store == st.(notes := st.notes[newId := o.store.notes[newId]])
    ensures o.response.Created? ==> newId in o.store.notes && o.store.notes[newId].createdBy == None
    ensures !o.response.Created? ==> o.store == st
    ensures o.response.Created? ==>
              newId in o.store.notes && o.store.notes[newId] ==
                NewNote(Input(NoteSerializer, p), KeyOr(Input(NoteSerializer, p), "lead", 0), None, now)
  {
    CollectionGate(NoteKind, req, "POST");
    match CheckPermissions(PermissionClasses(NoteKind), req, "POST")
    case Some(denial) => Outcome(denial, st)
    case None =>
      match Validate(NoteSerializer, st, p)
      case Err(errors) => Outcome(BadRequest(errors), st)
      case Ok(data) => SaveNote(st, data, KeyOr(data, "lead", 0), None, newId, now)
  }

  /** POST on the Note list route with the requester stamped as creator, as the Lead and Contact viewsets do. */
  function CreateNoteStamped(st: Store, req: Requester, p: Payload, newId: Id, now: Timestamp): (o: Outcome)
    ensures o.response.Created? <==>
              req.Authenticated? && Validate(NoteSerializer, st, p).Ok? && newId !in st.notes
    ensures o.response.Created? ==> newId in o.store.notes && o.store == st.(notes := st.notes[newId := o.store.notes[newId]])
    ensures o.response.Created? ==>
              req.Authenticated? && newId in o.store.notes && o.store.notes[newId].createdBy == Some(req.user.id)
    ensures !o.response.Created? ==> o.store == st
    ensures Valid(st) && Known(st, req) ==> Valid(o.store)
    ensures o.response.Created? ==>
              newId in o.store.notes && o.store.notes[newId] ==
                NewNote(Input(NoteSerializer, p), KeyOr(Input(NoteSerializer, p), "lead", 0), Some(req.user.id), now)
  {
    CollectionGate(NoteKind, req, "POST");
    match CheckPermissions(PermissionClasses(NoteKind), req, "POST")
    case Some(denial) => Outcome(denial, st)
    case None =>
      match Validate(NoteSerializer, st, p)
      case Err(errors) => Outcome(BadRequest(errors), st)
      case Ok(data) =>
        ValidNotePayload(st, p);
        SaveNote(st, data, KeyOr(data, "lead", 0), Some(req.user.id), newId, now)
  }

  /** POST on the Correspondence list route as written: no creator is saved. */
  function CreateCorrespondence(st: Store, req: Requester, p: Payload, newId: Id, now: Timestamp): (o: Outcome)
    ensures o.response.Created? <==>
              req.Authenticated? && Validate(CorrespondenceSerializer, st, p).Ok? && newId !in st.correspondence
    ensures o.response.Created? ==> newId in o.store.correspondence && o.store == st.(correspondence := st.correspondence[newId := o.store.correspondence[newId]])
    ensures o.response.Created? ==> newId in o.store.correspondence && o.store.correspondence[newId].createdBy == None
    ensures !o.response.Created? ==> o.store == st
    ensures o.response.Created? ==>
              newId in o.store.correspondence && o.store.correspondence[newId] ==
                NewCorrespondence(Input(CorrespondenceSerializer, p), KeyOr(Input(CorrespondenceSerializer, p), "contact", 0), None, now)
  {
    CollectionGate(CorrespondenceKind, req, "POST");
    match CheckPermissions(PermissionClasses(CorrespondenceKind), req, "POST")
    case Some(denial) => Outcome(denial, st)
    case None =>
      match Validate(CorrespondenceSerializer, st, p)
      case Err(errors) => Outcome(BadRequest(errors), st)
      case Ok(data) => SaveCorrespondence(st, data, KeyOr(data, "contact", 0), None, newId, now)
  }

  /** POST on the Correspondence list route with the requester stamped as creator. */
  function CreateCorrespondenceStamped(st: Store, req: Requester, p: Payload, newId: Id, now: Timestamp): (o: Outcome)
    ensures o.response.Created? <==>
              req.Authenticated? && Validate(CorrespondenceSerializer, st, p).Ok? && newId !in st.correspondence
    ensures o.response.Created? ==> newId in o.store.correspondence && o.store == st.(correspondence := st.correspondence[newId := o.store.correspondence[newId]])
    ensures o.response.Created? ==>
              && req.Authenticated? && newId in o.store.correspondence
              && o.store.correspondence[newId].createdBy == Some(req.user.id)
    ensures !o.response.Created? ==> o.store == st
    ensures Valid(st) && Known(st, req) ==> Valid(o.store)
    ensures o.response.Created? ==>
              newId in o.store.correspondence && o.store.correspondence[newId] ==
                NewCorrespondence(Input(CorrespondenceSerializer, p), KeyOr(Input(CorrespondenceSerializer, p), "contact", 0), Some(req.user.id), now)
  {
    CollectionGate(CorrespondenceKind, req, "POST");
    match CheckPermissions(PermissionClasses(CorrespondenceKind), req, "POST")
    case Some(denial) => Outcome(denial, st)
    case None =>
      match Validate(CorrespondenceSerializer, st, p)
      case Err(errors) => Outcome(BadRequest(errors), st)
      case Ok(data) =>
        ValidCorrespondencePayload(st, p);
        SaveCorrespondence(st, data, KeyOr(data, "contact", 0), Some(req.user.id), newId, now)
  }

  /** POST on the Reminder list route as written: no creator is saved, and the NOT NULL creator column refuses the row. */
  function CreateReminder(st: Store, req: Requester, p: Payload, newId: Id, now: Timestamp): (o: Outcome)
    ensures !o.response.Created?
    ensures o.store == st
  {
    match CheckPermissions(PermissionClasses(ReminderKind), req, "POST")
    case Some(denial) => Outcome(denial, st)
    case None =>
      match Validate(ReminderSerializer, st, p)
      case Err(errors) => Outcome(BadRequest(errors), st)
      case Ok(data) => SaveReminder(st, data, KeyOr(data, "lead", 0), None, newId, now)
  }

  /** POST on the Reminder list route with the requester stamped as creator. */
  function CreateReminderStamped(st: Store, req: Requester, p: Payload, newId: Id, now: Timestamp): (o: Outcome)
    ensures o.response.Created? <==>
              req.Authenticated? && Validate(ReminderSerializer, st, p).Ok? && newId !in st.reminders
    ensures o.response.Created? ==> newId in o.store.reminders && o.store.reminders[newId].createdBy == req.user.id
    ensures o.response.Created? ==> o.store == st.(reminders := st.reminders[newId := o.store.reminders[newId]])
    ensures !o.response.Created? ==> o.store == st
    ensures Valid(st) && Known(st, req) ==> Valid(o.store)
    ensures o.response.Created? ==>
              newId in o.store.reminders && o.store.reminders[newId] ==
                NewReminder(Input(ReminderSerializer, p), KeyOr(Input(ReminderSerializer, p), "lead", 0), req.user.id, now)
  {
    CollectionGate(ReminderKind, req, "POST");
    match CheckPermissions(PermissionClasses(ReminderKind), req, "POST")
    case Some(denial) => Outcome(denial, st)
    case None =>
      match Validate(ReminderSerializer, st, p)
      case Err(errors) => Outcome(BadRequest(errors), st)
      case Ok(data) =>
        ValidReminderPayload(st, p);
        SaveReminder(st, data, KeyOr(data, "lead", 0), Some(req.user.id), newId, now)
  }

  // ---------------------------------------------------------- detail actions

  /**
   * `add_note`: the Lead is fetched through `get_object`; a valid payload
   * creates a Note whose lead is that Lead (whatever lead the payload named)
   * and whose creator is the requester.
   */
  function AddNote(st: Store, req: Requester, leadId: Id, p: Payload, newId: Id, now: Timestamp): (o: Outcome)
    ensures o.response.Created? <==>
              && req.Authenticated? && GetObject(st, req.user, LeadKind, leadId, None).Granted?
              && Validate(NoteSerializer, st, p).Ok? && newId !in st.notes
    ensures !o.response.Created? ==> o.store == st
    ensures o.response.BadRequest? ==> Validate(NoteSerializer, st, p).Err?
    ensures o.response.Created? ==>
              && req.Authenticated? && leadId in st.leads
              && (IsManager(req.user) || st.leads[leadId].createdBy == Some(req.user.id))
              && newId in o.store.notes
              && o.store == st.(notes := st.notes[newId := o.store.notes[newId]])
              && o.store.notes[newId].lead == leadId
              && o.store.notes[newId].createdBy == Some(req.user.id)
    ensures Valid(st) && Known(st, req) ==> Valid(o.store)
    ensures o.response.Created? ==>
              newId in o.store.notes && o.store.notes[newId] ==
                NewNote(Input(NoteSerializer, p), leadId, Some(req.user.id), now)
    ensures o.response.BadRequest? ==> req.Authenticated? && GetObject(st, req.user, LeadKind, leadId, None).Granted?
  {
    CollectionGate(LeadKind, req, "POST");
    match CheckPermissions(PermissionClasses(LeadKind), req, "POST")
    case Some(denial) => Outcome(denial, st)
    case None =>
      match GetObject(st, req.user, LeadKind, leadId, None)
      case Denied(r) => Outcome(r, st)
      case Granted =>
        LeadObjectAccess(st, req.user, leadId);
        match Validate(NoteSerializer, st, p)
        case Err(errors) => Outcome(BadRequest(errors), st)
        case Ok(data) => SaveNote(st, data, leadId, Some(req.user.id), newId, now)
  }

  /** `add_reminder`: as `add_note`, creating a Reminder on the fetched Lead. */
  function AddReminder(st: Store, req: Requester, leadId: Id, p: Payload, newId: Id, now: Timestamp): (o: Outcome)
    ensures o.response.Created? <==>
              && req.Authenticated? && GetObject(st, req.user, LeadKind, leadId, None).Granted?
              && Validate(ReminderSerializer, st, p).Ok? && newId !in st.reminders
    ensures !o.response.Created? ==> o.store == st
    ensures o.response.BadRequest? ==> Validate(ReminderSerializer, st, p).Err?
    ensures o.response.Created? ==>
              && req.Authenticated? && leadId in st.leads
              && (IsManager(req.user) || st.leads[leadId].createdBy == Some(req.user.id))
              && newId in o.store.reminders
              && o.store == st.(reminders := st.reminders[newId := o.store.reminders[newId]])
              && o.store.reminders[newId].lead == leadId
              && o.store.reminders[newId].createdBy == req.user.id
    ensures Valid(st) && Known(st, req) ==> Valid(o.store)
    ensures o.response.Created? ==>
              newId in o.store.reminders && o.store.reminders[newId] ==
                NewReminder(Input(ReminderSerializer, p), leadId, req.user.id, now)
    ensures o.response.BadRequest? ==> req.Authenticated? && GetObject(st, req.user, LeadKind, leadId, None).Granted?
  {
    CollectionGate(LeadKind, req, "POST");
    match CheckPermissions(PermissionClasses(LeadKind), req, "POST")
    case Some(denial) => Outcome(denial, st)
    case None =>
      match GetObject(st, req.user, LeadKind, leadId, None)
      case Denied(r) => Outcome(r, st)
      case Granted =>
        LeadObjectAccess(st, req.user, leadId);
        match Validate(ReminderSerializer, st, p)
        case Err(errors) => Outcome(BadRequest(errors), st)
        case Ok(data) => SaveReminder(st, data, leadId, Some(req.user.id), newId, now)
  }

  /** `add_correspondence`: the Contact is fetched through `get_object`; the new row's contact is that Contact. */
  function AddCorrespondence(st: Store, req: Requester, contactId: Id, p: Payload, newId: Id, now: Timestamp): (o: Outcome)
    ensures o.response.Created? <==>
              && req.Authenticated? && GetObject(st, req.user, ContactKind, contactId, None).Granted?
              && Validate(CorrespondenceSerializer, st, p).Ok? && newId !in st.correspondence
    ensures !o.response.Created? ==> o.store == st
    ensures o.response.BadRequest? ==> Validate(CorrespondenceSerializer, st, p).Err?
    ensures o.response.Created? ==>
              && req.Authenticated? && contactId in st.contacts
              && (IsManager(req.user) || st.contacts[contactId].createdBy == Some(req.user.id))
              && newId in o.store.correspondence
              && o.store == st.(correspondence := st.correspondence[newId := o.store.correspondence[newId]])
              && o.store.correspondence[newId].contact == contactId
              && o.store.correspondence[newId].createdBy == Some(req.user.id)
    ensures Valid(st) && Known(st, req) ==> Valid(o.store)
    ensures o.response.Created? ==>
              newId in o.store.correspondence && o.store.correspondence[newId] ==
                NewCorrespondence(Input(CorrespondenceSerializer, p), contactId, Some(req.user.id), now)
    ensures o.response.BadRequest? ==> req.Authenticated? && GetObject(st, req.user, ContactKind, contactId, None).Granted?
  {
    CollectionGate(ContactKind, req, "POST");
    match CheckPermissions(PermissionClasses(ContactKind), req, "POST")
    case Some(denial) => Outcome(denial, st)
    case None =>
      match GetObject(st, req.user, ContactKind, contactId, None)
      case Denied(r) => Outcome(r, st)
      case Granted =>
        match Validate(CorrespondenceSerializer, st, p)
        case Err(errors) => Outcome(BadRequest(errors), st)
        case Ok(data) =>
          ValidCorrespondencePayload(st, p);
          SaveCorrespondence(st, data, contactId, Some(req.user.id), newId, now)
  }

  /**
   * `mark_completed`: the Reminder is fetched through `get_object` (with the
   * request's `is_completed` parameter); `save()` sets the flag and, as an
   * auto-now column, the update time. Nothing else changes.
   */
  function MarkCompleted(st: Store, req: Requester, id: Id, param: Option<string>, now: Timestamp): (o: Outcome)
    ensures o.response == Completed <==>
              req.Authenticated? && GetObject(st, req.user, ReminderKind, id, param).Granted?
    ensures o.response != Completed ==> o.store == st
    ensures o.response == Completed ==>
              o.store == st.(reminders := st.reminders[id := st.reminders[id].(isCompleted := true, updatedAt := now)])
    ensures o.store.reminders.Keys == st.reminders.Keys
    ensures forall k | k in st.reminders && st.reminders[k].isCompleted :: o.store.reminders[k].isCompleted
    ensures Valid(st) ==> Valid(o.store)
  {
    match CheckPermissions(PermissionClasses(ReminderKind), req, "POST")
    case Some(denial) => Outcome(denial, st)
    case None =>
      CollectionGate(ReminderKind, req, "POST");
      match GetObject(st, req.user, ReminderKind, id, param)
      case Denied(r) => Outcome(r, st)
      case Granted =>
        InsertReminderKeepsValid(st, id, st.reminders[id].(isCompleted := true, updatedAt := now));
        Outcome(Completed, st.(reminders := st.reminders[id := st.reminders[id].(isCompleted := true, updatedAt := now)]))
  }

  /** Marking a reminder completed a second time at the same moment changes nothing more. */
  lemma MarkCompletedIdempotent(st: Store, req: Requester, id: Id, param: Option<string>, now: Timestamp)
    ensures MarkCompleted(MarkCompleted(st, req, id, param, now).store, req, id, param, now).store
         == MarkCompleted(st, req, id, param, now).store
  {
    var once := MarkCompleted(st, req, id, param, now);
    var twice := MarkCompleted(once.store, req, id, param, now);
    if twice.response == Completed {
      assert once.response == Completed;
      assert twice.store.reminders == once.store.reminders;
    }
  }

  // ------------------------------------------------------------------ destroy

  /**
   * Removes a row of the kind, with the cascades of its foreign keys. A Note,
   * Correspondence or Reminder has no dependants: only its own table loses it.
   */
  function DeleteRow(st: Store, kind: Kind, id: Id): (r: Store)
    ensures TableKeys(r, kind) == TableKeys(st, kind) - {id}
    ensures kind == NoteKind ==>
              r == st.(notes := r.notes) && forall k | k in r.notes :: r.notes[k] == st.notes[k]
    ensures kind == CorrespondenceKind ==>
              r == st.(correspondence := r.correspondence)
              && forall k | k in r.correspondence :: r.correspondence[k] == st.correspondence[k]
    ensures kind == ReminderKind ==>
              r == st.(reminders := r.reminders) && forall k | k in r.reminders :: r.reminders[k] == st.reminders[k]
  {
    match kind
    case LeadKind => DeleteLead(st, id)
    case ContactKind => DeleteContact(st, id)
    case NoteKind => st.(notes := map k | k in st.notes && k != id :: st.notes[k])
    case CorrespondenceKind => st.(correspondence := map k | k in st.correspondence && k != id :: st.correspondence[k])
    case ReminderKind => st.(reminders := map k | k in st.reminders && k != id :: st.reminders[k])
  }

  /**
   * DELETE on a detail route. A Lead or a Contact is deleted only by a
   * manager; a Note, Correspondence or Reminder by its creator or a manager.
   */
  function Destroy(st: Store, req: Requester, kind: Kind, id: Id, param: Option<string>): (o: Outcome)
    ensures o.response == Deleted <==>
              && req.Authenticated?
              && (kind in {LeadKind, ContactKind} ==> IsManager(req.user))
              && GetObject(st, req.user, kind, id, param).Granted?
    ensures o.response == Deleted ==> id in TableKeys(st, kind) && id !in TableKeys(o.store, kind)
    ensures o.response == Deleted ==> o.store == DeleteRow(st, kind, id)
    ensures o.response != Deleted ==> o.store == st
    ensures Valid(st) ==> Valid(o.store)
  {
    CollectionGate(kind, req, "DELETE");
    match CheckPermissions(PermissionClasses(kind), req, "DELETE")
    case Some(denial) => Outcome(denial, st)
    case None =>
      match GetObject(st, req.user, kind, id, param)
      case Denied(r) => Outcome(r, st)
      case Granted =>
        DeleteRowKeepsValid(st, kind, id);
        Outcome(Deleted, DeleteRow(st, kind, id))
  }

  lemma DeleteRowKeepsValid(st: Store, kind: Kind, id: Id)
    ensures Valid(st) ==> Valid(DeleteRow(st, kind, id))
  {
    if Valid(st) {
      var r := DeleteRow(st, kind, id);
      match kind
      case LeadKind => DeleteLeadPreservesValid(st, id);
      case ContactKind =>
      case NoteKind => assert NotesValid(r);
      case CorrespondenceKind => assert CorrespondenceValid(r);
      case ReminderKind => assert RemindersValid(r);
    }
  }

  // ------------------------------------------------------------ consequences

  /**
   * An agent assigned to a Lead they did not create sees it in their listing,
   * but retrieving it, deleting it and adding a note to it are all refused.
   */
  lemma AssignedAgentListsButCannotOpen(st: Store, user: User, id: Id, p: Payload, newId: Id, now: Timestamp)
    requires IsAgent(user) && id in st.leads
    requires st.leads[id].assignedTo == Some(user.id) && st.leads[id].createdBy != Some(user.id)
    ensures id in Scope(st, user, LeadKind, None)
    ensures Retrieve(st, Authenticated(user), LeadKind, id, None) == Forbidden
    ensures AddNote(st, Authenticated(user), id, p, newId, now).response == Forbidden
    ensures Destroy(st, Authenticated(user), LeadKind, id, None).response == Forbidden
  {
    LeadListedButRefused(st, user, id);
    CollectionGate(LeadKind, Authenticated(user), "GET");
    CollectionGate(LeadKind, Authenticated(user), "POST");
    CollectionGate(LeadKind, Authenticated(user), "DELETE");
  }

  /** A Lead created by a user can be retrieved by that user, with the default status and priority unless the payload set them. */
  lemma CreatedLeadRetrievable(st: Store, user: User, p: Payload, newId: Id, now: Timestamp)
    requires CreateLead(st, Authenticated(user), p, newId, now).response.Created?
    ensures Retrieve(CreateLead(st, Authenticated(user), p, newId, now).store, Authenticated(user), LeadKind, newId, None) == Retrieved
  {
    var after := CreateLead(st, Authenticated(user), p, newId, now).store;
    LeadObjectAccess(after, user, newId);
  }

  /** A Note posted by an agent on the Note list route is invisible to that agent afterwards. */
  lemma PostedNoteLostToItsAgent(st: Store, user: User, p: Payload, newId: Id, now: Timestamp)
    requires !IsManager(user)
    requires CreateNote(st, Authenticated(user), p, newId, now).response.Created?
    ensures newId !in Scope(CreateNote(st, Authenticated(user), p, newId, now).store, user, NoteKind, None)
    ensures Retrieve(CreateNote(st, Authenticated(user), p, newId, now).store, Authenticated(user), NoteKind, newId, None) == NotFound
  {
  }

  /** With the creator stamped, a posted Note is retrievable by whoever posted it. */
  lemma StampedNoteRetrievable(st: Store, user: User, p: Payload, newId: Id, now: Timestamp)
    requires CreateNoteStamped(st, Authenticated(user), p, newId, now).response.Created?
    ensures Retrieve(CreateNoteStamped(st, Authenticated(user), p, newId, now).store, Authenticated(user), NoteKind, newId, None) == Retrieved
  {
    var after := CreateNoteStamped(st, Authenticated(user), p, newId, now).store;
    ObjectGate(NoteKind, user, OwnershipAt(after, NoteKind, newId));
  }

  /** A Correspondence posted by an agent on its list route is invisible to that agent afterwards. */
  lemma PostedCorrespondenceLostToItsAgent(st: Store, user: User, p: Payload, newId: Id, now: Timestamp)
    requires !IsManager(user)
    requires CreateCorrespondence(st, Authenticated(user), p, newId, now).response.Created?
    ensures Retrieve(CreateCorrespondence(st, Authenticated(user), p, newId, now).store, Authenticated(user), CorrespondenceKind, newId, None) == NotFound
  {
  }

  /** With the creator stamped, a posted Correspondence is retrievable by whoever posted it. */
  lemma StampedCorrespondenceRetrievable(st: Store, user: User, p: Payload, newId: Id, now: Timestamp)
    requires CreateCorrespondenceStamped(st, Authenticated(user), p, newId, now).response.Created?
    ensures Retrieve(CreateCorrespondenceStamped(st, Authenticated(user), p, newId, now).store, Authenticated(user), CorrespondenceKind, newId, None) == Retrieved
  {
    var after := CreateCorrespondenceStamped(st, Authenticated(user), p, newId, now).store;
    ObjectGate(CorrespondenceKind, user, OwnershipAt(after, CorrespondenceKind, newId));
  }

  /** A valid Reminder post by an authenticated user on the Reminder list route is always refused. */
  lemma PostedReminderRefused(st: Store, user: User, p: Payload, newId: Id, now: Timestamp)
    requires Validate(ReminderSerializer, st, p).Ok?
    ensures CreateReminder(st, Authenticated(user), p, newId, now).response == IntegrityError
  {
    CollectionGate(ReminderKind, Authenticated(user), "POST");
  }

  /** With the creator stamped, a valid Reminder post creates a reminder its poster can retrieve. */
  lemma StampedReminderRetrievable(st: Store, user: User, p: Payload, newId: Id, now: Timestamp)
    requires CreateReminderStamped(st, Authenticated(user), p, newId, now).response.Created?
    ensures Retrieve(CreateReminderStamped(st, Authenticated(user), p, newId, now).store, Authenticated(user), ReminderKind, newId, None) == Retrieved
  {
    var after := CreateReminderStamped(st, Authenticated(user), p, newId, now).store;
    ObjectGate(ReminderKind, user, OwnershipAt(after, ReminderKind, newId));
  }

  /** Once its creator is deleted, a Contact, Note or Correspondence is in no non-manager's scope. */
  lemma OrphanedRowsOnlyForManagers(st: Store, uid: UserId, user: User, kind: Kind, id: Id)
    requires !IsManager(user) && kind in {ContactKind, NoteKind, CorrespondenceKind}
    requires id in TableKeys(st, kind) && OwnershipAt(st, kind, id).createdBy == Present(Some(uid))
    ensures id !in Scope(DeleteUser(st, uid), user, kind, None)
  {
  }
}

=== FILE: wrappers.dfy ===
/** Failure-carrying values returned throughout the model. */
module Wrappers {

  /** A value that may be missing: a nullable column, an omitted payload field. */
  datatype Option<+T> = None | Some(value: T) {

    /** The carried value, or `default` when there is none. */
    function GetOr(default: T): T {
      match this
      case Some(v) => v
      case None => default
    }
  }

  /** Either a value or the error that replaced it. */
  datatype Result<+T, +E> = Ok(value: T) | Err(error: E)
}
